=== FILE: README.md ===
# SmartReview in Dafny

SmartReview reviews GitHub pull requests automatically. A GitHub App sends
webhooks to a Flask backend, which runs a four-stage review graph: fetch the
patches, ask a Groq-hosted model, frame the answer, and post it as a comment.
A React frontend signs users in with GitHub, installs the App, and stores each
user's Groq API key. The backend keeps that key encrypted in MongoDB.

This project models the logic at the centre of that system and proves
properties about it:

- `wrappers.dfy` — `Option` and `Result`.
- `strings.dfy` — the string routines the code relies on:
  - `split` with a non-empty separator, shared by JavaScript and Python;
  - `join`;
  - Python's `str.replace`, defined as a join of a split;
  - JavaScript's `trim`, over the whitespace set that `String.prototype.trim` uses;
  - JavaScript's UTF-16 `length`.
- `api_key_setup.dfy` — the API-key validator and the setup panel's state machine (`ApiKeySetup.jsx`).
- `home.dfy`:
  - the one-shot parse of the redirect query string;
  - the identity fetch;
  - the sign-in gate in front of installation;
  - sign-out (`Home.jsx`).
- `protected_route.dfy` — `getCookie` and the route guard (`ProtectedRoute.jsx`).
- `app.dfy` — the axios request interceptor and the route table (`App.jsx`).
- `code_review_agent.dfy` — the review graph (`code_review_agent.py`):
  - the patch filter and format loop;
  - the prompt substitution;
  - the first-or-default rule and the frame of the posted review;
  - the stage order.
- `webhook.dfy` — the signature gate, the webhook dispatch rule and `link_repo` (`backend/app.py`).
- `database.dfy` — the user key store: an upsert into a map keyed by GitHub id, with symbolic Fernet encryption (`backend/database.py`).

Asynchronous handlers are split at their `await`. A `...Started` method makes
the call and records it in a `requests` log. A `...Settled` method takes the
call's outcome as a parameter. The following all become parameters:

- network responses;
- the stored JWT;
- the HMAC digest;
- the language model;
- GitHub's file listing;
- `JSON.parse(decodeURIComponent(...))`;
- the IV that Fernet draws.

Toasts and navigations are recorded as values in logs, not rendered.

Notes on the code's behaviour, which the model follows:

- `repos` defaults to 0 only when the parameter is absent. `Number()` of an
  unparsable value is not defaulted.
- The home page reads no `jwt` redirect parameter.
- The setup panel has no in-flight guard of its own.
- There is no delete flow in the code modelled here.
- Without a user, the setup panel never issues the status query, so `checking`
  stays true and the spinner stays up (`ApiKeySetup.SetupPanel.UserChanged`,
  `ApiKeySetup.SetupPanel.CurrentView`).
- A failed status query keeps the previous `hasApiKey`
  (`ApiKeySetup.SetupPanel.StatusSettled`).

## Model

| member | source | states |
|---|---|---|
| ApiKeySetup.ValidateApiKey | frontend/src/components/ApiKeySetup.jsx:29-65 | the validator; its behaviour is stated by BlankKeyIsEmptyError, ValidateIsFirstFailure and ValidIffWellFormed |
| ApiKeySetup.Message | frontend/src/components/ApiKeySetup.jsx:31-61 | each refusal has its fixed message, and none is empty |
| ApiKeySetup.BlankKeyIsEmptyError | frontend/src/components/ApiKeySetup.jsx:30-32 | a null, empty or whitespace-only key, and only such a key, gets the "Please enter your Groq API key" error |
| ApiKeySetup.ValidateIsFirstFailure | frontend/src/components/ApiKeySetup.jsx:34-64 | for a non-blank key the result is the error of the first failing rule, in the fixed order prefix, too short, too long, characters, 40+ suffix, and null when all pass |
| ApiKeySetup.ValidIffWellFormed | frontend/src/components/ApiKeySetup.jsx:34-64 | a key is accepted iff, trimmed, it is `gsk_` followed by at least 40 characters of `[A-Za-z0-9_-]` and is at most 200 long |
| ApiKeySetup.ShortWellCharKeyIsSuspicious | frontend/src/components/ApiKeySetup.jsx:42-61 | a trimmed key of 20 to 43 allowed characters after `gsk_` gets the "format appears incorrect" error, not "too short" |
| ApiKeySetup.KeyTextIsBmp | frontend/src/components/ApiKeySetup.jsx:42-49 | for `gsk_` plus allowed characters the JavaScript length is the character count |
| ApiKeySetup.FirstFailure | frontend/src/components/ApiKeySetup.jsx:34-64 | no error is reported exactly when every rule passes |
| ApiKeySetup.InlineError | frontend/src/components/ApiKeySetup.jsx:67-78 | a keystroke stores `''` exactly for whitespace-only input, and when the message shows it is the validator's message for that input |
| ApiKeySetup.InlineErrorShownIff | frontend/src/components/ApiKeySetup.jsx:67-78 | the inline message shows exactly when the input is non-blank and breaks a rule; blank input stores `''` without validating |
| ApiKeySetup.SubmitGateAgreesWithInlineError | frontend/src/components/ApiKeySetup.jsx:72-87 | submission proceeds exactly when a keystroke with the same text would store `null` |
| ApiKeySetup.BearerHeader | frontend/src/components/ApiKeySetup.jsx:98 | the header starts with `Bearer `, and reads `Bearer null` when no jwt is stored |
| ApiKeySetup.SaveFailureText | frontend/src/components/ApiKeySetup.jsx:108 | the failure notice is the server's non-empty `error`, otherwise a non-empty fallback |
| ApiKeySetup.SetupPanel.constructor | frontend/src/components/ApiKeySetup.jsx:6-10 | empty key, not saving, no key known, checking, `validationError` `''`, nothing issued |
| ApiKeySetup.SetupPanel.UserChanged | frontend/src/components/ApiKeySetup.jsx:12-16 | the status query is issued exactly when a user is present |
| ApiKeySetup.SetupPanel.StatusSettled | frontend/src/components/ApiKeySetup.jsx:18-27 | `checking` always ends false; `hasApiKey` takes the response, or keeps its prior value on failure |
| ApiKeySetup.SetupPanel.KeyChanged | frontend/src/components/ApiKeySetup.jsx:67-78 | the field holds the new text and `validationError` is `''` for blank input, else the validator's answer |
| ApiKeySetup.SetupPanel.SubmitStarted | frontend/src/components/ApiKeySetup.jsx:80-101 | a failing key adds one refusal notice and changes nothing else (no POST, `saving` untouched); a valid key sets `saving` and posts the trimmed key with the bearer header |
| ApiKeySetup.SetupPanel.SubmitSettled | frontend/src/components/ApiKeySetup.jsx:102-111 | success sets `hasApiKey`, clears the field and calls the callback once if given; failure leaves key and flag unchanged and adds the error notice; `saving` ends false |
| ApiKeySetup.SetupPanel.UpdateKeyClicked | frontend/src/components/ApiKeySetup.jsx:141 | "Update API Key" clears `hasApiKey` with no backend call |
| ApiKeySetup.SetupPanel.CurrentView | frontend/src/components/ApiKeySetup.jsx:114-192 | spinner exactly while checking, confirmation exactly when done and a key is known, else the form; the form shows text exactly when `validationError` is truthy, and that text is the stored non-empty message |
| Strings.Trim | frontend/src/components/ApiKeySetup.jsx:30-34 | the trimmed key is empty iff the key is all whitespace, and otherwise starts and ends with non-whitespace |
| Strings.TrimIsInfix | frontend/src/components/ApiKeySetup.jsx:34 | the trimmed key is the run of the key that follows its leading whitespace |
| Strings.TrimRemovesOnlySpace | frontend/src/components/ApiKeySetup.jsx:34 | only whitespace is removed, before and after the result |
| Strings.TrimIdempotent | frontend/src/components/ApiKeySetup.jsx:30-34 | trimming twice is trimming once |
| Strings.Utf16Length | frontend/src/components/ApiKeySetup.jsx:42-47 | the JavaScript length is between the character count and twice it |
| Home.Find | frontend/src/components/Home.jsx:26-32 | the lookup finds the first pair with the name, or reports that none has it |
| Home.Get | frontend/src/components/Home.jsx:26-50 | `params.get`; GetIsFirstValue states it is the value of the first pair with the name |
| Home.Has | frontend/src/components/Home.jsx:29 | `params.has`; Find states when a pair with the name exists |
| Home.GetIsFirstValue | frontend/src/components/Home.jsx:26-32 | `get` returns a value exactly when a pair with that name and value has no earlier pair of the same name |
| Home.LaterPairIgnored | frontend/src/components/Home.jsx:29-31 | appending a pair never changes the lookup of a name already present or of another name |
| Home.ParseRedirect | frontend/src/components/Home.jsx:29-51 | an install result exists iff `installed` is present; `installed` is true iff it equals `1`; `repos` is 0 iff absent, else its raw value; `error` is null iff absent or empty; a refetch happens iff `auth` equals `1` |
| Home.UnrelatedParamIgnored | frontend/src/components/Home.jsx:24-51 | a parameter other than the four, anywhere in the query, changes nothing |
| Home.GetSkips | frontend/src/components/Home.jsx:26 | a pair of another name, anywhere, does not change a lookup |
| Home.SecondParseIsNoOp | frontend/src/components/Home.jsx:53-56 | once the query is cleared, parsing yields no result and no refetch |
| Home.InstalledThreeRepos | frontend/src/components/Home.jsx:29-34 | `?installed=1&repos=3` gives a successful result for `3` with no error and no refetch |
| Home.FailedAuthDoesNothing | frontend/src/components/Home.jsx:37-51 | `?auth=0` shows nothing and refetches nothing |
| Home.HomePage.constructor | frontend/src/components/Home.jsx:6-10 | not installing, no result, no user, nothing issued |
| Home.HomePage.FetchUser | frontend/src/components/Home.jsx:12-22 | the mount effect issues one identity query |
| Home.HomePage.UserFetchSettled | frontend/src/components/Home.jsx:13-19 | the user becomes the response data, or null when the call failed |
| Home.HomePage.ConsumeRedirect | frontend/src/components/Home.jsx:24-60 | the install result and the refetch follow the parse, and the query string is always cleared |
| Home.HomePage.DismissInstallResult | frontend/src/components/Home.jsx:103 | dismissing clears the result |
| Home.HomePage.InstallApp | frontend/src/components/Home.jsx:62-73 | without a user: navigate to `/login` with `installing` unchanged; with one: set `installing` and go to `/install` |
| Home.HomePage.SignInWithGitHub | frontend/src/components/Home.jsx:75-78 | the browser goes to `/auth/login` |
| Home.HomePage.SignOutStarted | frontend/src/components/Home.jsx:80-83 | one logout call is issued |
| Home.HomePage.SignOutSettled | frontend/src/components/Home.jsx:80-85 | the user is cleared whether or not the logout call threw |
| ProtectedRoute.Marker | frontend/src/components/ProtectedRoute.jsx:5-6 | the delimiter is `"; " + name + "="`, starting with `;` |
| ProtectedRoute.GetCookie | frontend/src/components/ProtectedRoute.jsx:4-8 | `getCookie`; GetCookieSound and GetCookieComplete state exactly which value it returns, AbsentCookie and RepeatedCookie when it returns none |
| ProtectedRoute.Guard | frontend/src/components/ProtectedRoute.jsx:9-10 | the guard; GuardAdmitsIff and NoCookieRedirects state when it renders the children and when it redirects |
| ProtectedRoute.GetCookieSound | frontend/src/components/ProtectedRoute.jsx:4-8 | a returned value follows the only occurrence of the delimiter in `"; " + cookies`, holds no `;`, and runs to the next `;` or the end |
| ProtectedRoute.GetCookieComplete | frontend/src/components/ProtectedRoute.jsx:4-8 | conversely, for a name without `;`, a delimiter occurring exactly once yields the value up to the next `;` |
| ProtectedRoute.AbsentCookie | frontend/src/components/ProtectedRoute.jsx:6-7 | no delimiter, no value |
| ProtectedRoute.RepeatedCookie | frontend/src/components/ProtectedRoute.jsx:6-7 | two delimiters (split into three or more parts) give no value |
| ProtectedRoute.LongerNameNotMatched | frontend/src/components/ProtectedRoute.jsx:5-6 | a cookie named `xuser` is not taken for `user` |
| ProtectedRoute.FirstSegment | frontend/src/components/ProtectedRoute.jsx:7 | `split(';').shift()` is the longest prefix without `;` |
| ProtectedRoute.GuardAdmitsIff | frontend/src/components/ProtectedRoute.jsx:9-10 | children render iff a single `user` cookie has a non-empty value that parses to something truthy |
| ProtectedRoute.NoCookieRedirects | frontend/src/components/ProtectedRoute.jsx:9-10 | without a `user` cookie the guard redirects to `/login` |
| Strings.SplitTwoOccurrences | frontend/src/components/ProtectedRoute.jsx:6-7 | two non-overlapping delimiters split the text into at least three parts |
| Strings.Split | frontend/src/components/ProtectedRoute.jsx:6 | `split` on a non-empty separator; JoinSplit, SplitPartsFree, SplitSingleIffFree and SplitJoin state what the parts are |
| Strings.Join | code_review_agent.py:41 | `join`; JoinSplit and SplitJoin make it the inverse of Split |
| Strings.Replace | code_review_agent.py:48 | `str.replace`; ReplaceAll and ReplaceAbsent state the substitution |
| Strings.IndexOf | frontend/src/components/ProtectedRoute.jsx:6 | the search finds the leftmost occurrence, or none exists |
| Strings.SplitPartsFree | frontend/src/components/ProtectedRoute.jsx:6 | no part of a split contains the separator |
| Strings.SplitSingleIffFree | frontend/src/components/ProtectedRoute.jsx:6-7 | a split has one part iff the separator does not occur |
| Strings.SplitJoin | frontend/src/components/ProtectedRoute.jsx:6 | splitting a join of separator-free parts on a non-self-overlapping separator gives the parts back |
| App.AuthHeaders | frontend/src/App.jsx:12-18 | a truthy jwt sets `Authorization: Bearer <jwt>` and adds no other key; a null or empty jwt leaves the headers unchanged; other headers are untouched |
| App.AuthHeadersIdempotent | frontend/src/App.jsx:12-18 | running the interceptor twice equals running it once |
| App.Intercept | frontend/src/App.jsx:12-18 | the configuration is updated in place to the interceptor's headers and returned |
| App.RequestConfig.constructor | frontend/src/App.jsx:12 | a configuration with the given URL, verb and headers |
| App.SetupKeyHeaderSurvivesInterceptor | frontend/src/App.jsx:12-18 | the setup request's header survives the interceptor unchanged, and reads `Bearer null` when no jwt is stored |
| App.RouteFor | frontend/src/App.jsx:24-26 | the route table; DashboardOnlyThroughGuard and OtherPathsIgnoreCookies state what each path renders |
| App.Render | frontend/src/App.jsx:24-26 | rendering a path; only `/dashboard` goes through the guard (DashboardOnlyThroughGuard) |
| App.DashboardOnlyThroughGuard | frontend/src/App.jsx:24-26 | the dashboard shows iff the path is `/dashboard` and the guard admits |
| App.OtherPathsIgnoreCookies | frontend/src/App.jsx:24-26 | every other path renders the same whatever the cookies are |
| App.DashboardWithoutCookieRedirects | frontend/src/App.jsx:26 | `/dashboard` without a `user` cookie redirects to `/login` |
| CodeReviewAgent.Entry | code_review_agent.py:34 | an entry starts with `File: ` and ends with the patch |
| CodeReviewAgent.FormatChanges | code_review_agent.py:32-34 | there are no more entries than files |
| CodeReviewAgent.FormatChangesAppend | code_review_agent.py:32-34 | formatting keeps file order: two runs of files format to the two runs of entries in turn |
| CodeReviewAgent.FormatChangesMembers | code_review_agent.py:32-34 | an entry is produced exactly for the files with a truthy patch |
| CodeReviewAgent.FetchPrChanges | code_review_agent.py:22-36 | the loop returns exactly the formatted entries of the pull request's files |
| CodeReviewAgent.PlaceholderNoBorder | code_review_agent.py:48 | `{all_code}` cannot overlap itself |
| CodeReviewAgent.Prompt | code_review_agent.py:41-48 | the prompt; PromptFillsEveryPlaceholder and PromptWithoutPlaceholder state what it holds |
| CodeReviewAgent.PromptFillsEveryPlaceholder | code_review_agent.py:41-48 | every placeholder in the template is replaced by the changes joined with blank lines |
| CodeReviewAgent.PromptWithoutPlaceholder | code_review_agent.py:48 | a template without the placeholder is sent unchanged |
| CodeReviewAgent.AnalyzeCode | code_review_agent.py:39-53 | the update sets feedback to exactly one item and leaves the changes alone |
| CodeReviewAgent.FirstOrDefault | code_review_agent.py:57-72 | the first feedback item or the fallback; ProvideFeedback and PostFeedback state its two cases |
| CodeReviewAgent.Framed | code_review_agent.py:59-64 | the review sits between the fixed header and the fixed footer |
| CodeReviewAgent.UnframeFramed | code_review_agent.py:59-64 | the review can be read back intact out of the framed text |
| CodeReviewAgent.ProvideFeedback | code_review_agent.py:56-66 | a one-item update whose text starts with the fixed header, ends with the fixed footer, and between them holds the first feedback item, or "No feedback generated." when there is none |
| CodeReviewAgent.PostFeedback | code_review_agent.py:69-79 | the comment goes to the state's repository and pull request with the first item or the fallback, and the state update is empty |
| CodeReviewAgent.Apply | code_review_agent.py:9-13 | merging an update never changes the repository or pull request number |
| CodeReviewAgent.StageOrder | code_review_agent.py:82-92 | from the entry the graph runs fetch, analyze, feedback, post, each once, in that order |
| CodeReviewAgent.GraphRun | code_review_agent.py:82-94 | running the stages along the graph's edges leaves the formatted changes and the framed model answer in the state, and posts that framed answer exactly once |
| CodeReviewAgent.Invoke | code_review_agent.py:82-94 | the loop follows the stages of the graph walk, and its result is the run GraphRun describes |
| CodeReviewAgent.PostedReviewIsModelAnswer | code_review_agent.py:56-94 | a graph run posts one comment, and the model's answer can be read back intact from it |
| Strings.JoinSplit | code_review_agent.py:48 | joining the parts of a split with the separator restores the text |
| Strings.ReplaceAll | code_review_agent.py:48 | replacing a non-self-overlapping pattern substitutes at every occurrence |
| Strings.ReplaceAbsent | code_review_agent.py:48 | replacing an absent pattern changes nothing |
| Webhook.VerifySignature | backend/app.py:15-20 | with no secret everything passes; otherwise a missing or non-ASCII header raises, and an ASCII header passes iff it equals `sha256=` plus the digest |
| Webhook.CorrectSignaturePasses | backend/app.py:18-20 | the correctly signed request passes the gate |
| Webhook.GithubWebhook | backend/app.py:22-44 | the handler; StartedIff, StartedOnlyWhenAuthentic, WrongSignatureForbidden, MissingSignatureFails, UnreadableBodyRejected, OtherEventsIgnored, OtherActionsIgnored, NonObjectPullRequestFails and MissingFieldsFail state its answers |
| Webhook.MissingSignatureFails | backend/app.py:15-28 | with a secret set, a missing or non-ASCII signature header gets 500, not 403, and starts nothing |
| Webhook.UnreadableBodyRejected | backend/app.py:30-31 | past the gate, a body that is not JSON gets Flask's 400 |
| Webhook.MissingFieldsFail | backend/app.py:33-37 | a starting `pull_request` event without `repository.full_name` or `pull_request.number` gets 500 and starts nothing |
| Webhook.Index | backend/app.py:36-37 | a lookup succeeds iff the value is an object holding the key |
| Webhook.Lookup | backend/app.py:36-37 | a two-level lookup succeeds iff both levels do |
| Webhook.StartedOnlyWhenAuthentic | backend/app.py:23-44 | no analysis starts without a passing signature, and a started one answers 200 `Analysis started` |
| Webhook.StartedIff | backend/app.py:30-42 | an analysis for (`full_name`, `number`) starts iff the request is authentic, the event is `pull_request`, the action is opened, synchronize or reopened, and both fields are present |
| Webhook.WrongSignatureForbidden | backend/app.py:27-28 | a present ASCII signature that differs from the expected one gets 403 `Invalid signature` and starts nothing |
| Webhook.OtherEventsIgnored | backend/app.py:30-44 | past the gate, any other event with a readable body gets 200 `Event ignored` |
| Webhook.OtherActionsIgnored | backend/app.py:33-44 | past the gate, a `pull_request` event whose action is not opened, synchronize or reopened gets 200 `Event ignored` |
| Webhook.NonObjectPullRequestFails | backend/app.py:33-34 | a `pull_request` event whose body is not a JSON object makes the handler raise: 500 |
| Webhook.LinkRepo | backend/app.py:63-72 | an unreadable body gets Flask's 400; a body that is not an object makes `.get` raise, so 500; for an object body, 400 `repo_name required` iff `repo_name` is missing or falsy, and any truthy `repo_name` gets 200 with the `Repo … linked` message |
| Webhook.LinkRepoEchoesName | backend/app.py:72 | a non-empty name comes back in a 200 message that starts with `Repo <name>` and ends with the fixed advice |
| Database.Encrypt | backend/database.py:36-38 | a token is bound to the key that made it |
| Database.Decrypt | backend/database.py:40-42 | decryption succeeds iff the token was made with the same key |
| Database.DecryptEncrypt | backend/database.py:36-42 | decryption undoes encryption under the same key |
| Database.Upsert | backend/database.py:51-56 | the key field is set for the id, creating the record if absent; its other fields and every other record are untouched |
| Database.LatestWriteWins | backend/database.py:52-56 | two updates for the same id leave the second key |
| Database.DecryptedKey | backend/database.py:81-84 | none exactly when there is no record or no key field; an error exactly when the key field was made with another key |
| Database.ReadAfterWrite | backend/database.py:46-84 | reading a key back after storing it returns that key |
| Database.WriteLeavesOthers | backend/database.py:52-56 | storing one user's key leaves every other user's read unchanged |
| Database.RestartWithNewKeyRaises | backend/database.py:13-21 | a key stored under one cipher key cannot be read under another: the read raises |
| Database.UserStore.constructor | backend/database.py:10 | an empty collection with the given cipher key and connection state |
| Database.UserStore.CreateOrUpdate | backend/database.py:46-56 | an uninitialised database raises and changes nothing; otherwise the encrypted key is upserted |
| Database.UserStore.GetByGithubId | backend/database.py:58-64 | the record when connected and present, otherwise none |
| Database.UserStore.HasApiKey | backend/database.py:66-73 | true iff connected and the record exists and holds the key field |
| Database.UserStore.GetDecryptedApiKey | backend/database.py:75-84 | none when uninitialised; otherwise the stored key decrypted, none without a record or field, and the decryption error when the key differs |

## Left out

- JSX, styling and spinners. Notifications are kept as values in a log; a refusal toast records its reason, whose text is `ApiKeySetup.Message`.
- `Login.jsx`, `Dashboard.jsx`, `DeleteConfirmationDialog.jsx` and `ApiKeySuccess.jsx`. They only render and forward callbacks. There is no delete flow in the modelled code.
- The test servers `test.py` and `test2/test.py`, and the CLI `__main__` blocks.
- React scheduling. Each handler half runs atomically, in whatever order the caller chooses:
  - a save settling after a later keystroke leaves that keystroke's inline error standing;
  - an identity fetch settling after sign-out sets the user again.
  
  The button disabled while `saving` is not modelled.
- `URLSearchParams` decoding of the raw query string. The model starts from decoded name/value pairs.
- `Home.Repos` keeps `Number(repos)` as its raw text. JavaScript's number conversion, including `NaN`, is not modelled.
- `window.history.replaceState`, and the `try`/`catch` around the redirect effect. Clearing the query string is modelled as emptying `query`.
- App.RouteFor: matches paths exactly. React Router's case-insensitive and trailing-slash matching is not modelled.
- `decodeURIComponent` and `JSON.parse`. They are the `parse` parameter of the guard.
- HMAC-SHA256, and the UTF-8 encoding of the secret. The digest is the `hmacHex` parameter.
- Fernet. It is symbolic: a token records its key, IV and plaintext. Timestamps, TTLs and the base64 text form are not modelled.
- `init_db`, the ping, and generation of the encryption key at import. The cipher key and connection state are constructor parameters.
- Threading and `run_analysis`'s exception handling. The started analysis is the handler's output.
- The `/health` endpoint.
- Duplicate `github_id` documents. The collection is a map keyed by id, which is what `create_or_update` maintains.
- Floating-point JSON numbers. `Webhook.Json` has integers only.
- Flask's exact error status for an unreadable body. It is modelled as one 400 error page.
- `ApiKeySetup.SetupPanel.StatusSettled`: takes the truthiness of `has_api_key` as a boolean. The raw JSON value stored in `hasApiKey` is not modelled.
- `CodeReviewAgent.StageOrder`: models the four-stage graph the code evidently intends. Building it as written is not modelled: the node `"feedback"` shares its name with the `feedback` key of `CodeReviewState` (code_review_agent.py:13, :85), which LangGraph versions that export `START` refuse with a `ValueError` at import.
- `CodeReviewAgent.FormatChanges`: the ensures states only the length bound. Its content is stated by `FormatChangesAppend` and `FormatChangesMembers`.

=== FILE: api_key_setup.dfy ===
/**
 * The Groq API-key setup panel of the frontend: the format check applied to a key
 * before it is sent, and the panel's state (`apiKey`, `saving`, `hasApiKey`,
 * `checking`, `validationError`) as the status check, keystrokes, submission and
 * the "Update API Key" button change it.
 */
module ApiKeySetup {
  import opened Wrappers
  import opened Strings

  const KeyPrefix := "gsk_"
  const MinKeyLength := 20
  const MaxKeyLength := 200
  const MinSuffixLength := 40

  /** Why a key was refused, one case per message the validator can return. */
  datatype KeyError = Empty | BadPrefix | TooShort | TooLong | BadChars | SuspiciousFormat

  /** The messages `validateApiKey` returns, one per refusal. */
  const EmptyMessage := "Please enter your Groq API key"
  const BadPrefixMessage := "Invalid API key format. Groq API keys must start with \"gsk_\""
  const TooShortMessage := "API key appears to be too short. Please check your key from Groq Console"
  const TooLongMessage := "API key appears to be too long. Please check your key from Groq Console"
  const BadCharsMessage := "API key contains invalid characters. Only letters, numbers, underscores, and hyphens are allowed"
  const SuspiciousFormatMessage := "API key format appears incorrect. Please verify you copied the complete key from Groq Console"

  /** The message for a refusal; none is empty, so JavaScript treats each as truthy. */
  function Message(e: KeyError): (m: string)
    ensures m != ""
  {
    match e
    case Empty => EmptyMessage
    case BadPrefix => BadPrefixMessage
    case TooShort => TooShortMessage
    case TooLong => TooLongMessage
    case BadChars => BadCharsMessage
    case SuspiciousFormat => SuspiciousFormatMessage
  }

  /** A character of the class `[a-zA-Z0-9_-]`. */
  predicate IsKeyChar(c: char) {
    ('a' <= c <= 'z') || ('A' <= c <= 'Z') || ('0' <= c <= '9') || c == '_' || c == '-'
  }

  predicate AllKeyChars(s: string) {
    forall i :: 0 <= i < |s| ==> IsKeyChar(s[i])
  }

  /** The pattern `^gsk_[a-zA-Z0-9_-]+$`. */
  predicate MatchesKeyPattern(t: string) {
    StartsWith(t, KeyPrefix) && |t| > |KeyPrefix| && AllKeyChars(t[|KeyPrefix|..])
  }

  /** The pattern `^gsk_[a-zA-Z0-9_-]{40,}$`. */
  predicate MatchesGroqPattern(t: string) {
    StartsWith(t, KeyPrefix) && |t| >= |KeyPrefix| + MinSuffixLength && AllKeyChars(t[|KeyPrefix|..])
  }

  /**
   * `validateApiKey`: `None` (the JavaScript `null`) for an acceptable key, otherwise
   * the first rule the trimmed key breaks. `key` is `None` for `null`/`undefined`.
   * Lengths are JavaScript lengths, in UTF-16 code units.
   */
  function ValidateApiKey(key: Option<string>): (r: Option<KeyError>)
  {
    if key.None? || Trim(key.value) == "" then Some(Empty)
    else
      var t := Trim(key.value);
      if !StartsWith(t, KeyPrefix) then Some(BadPrefix)
      else if Utf16Length(t) < MinKeyLength then Some(TooShort)
      else if Utf16Length(t) > MaxKeyLength then Some(TooLong)
      else if !MatchesKeyPattern(t) then Some(BadChars)
      else if !MatchesGroqPattern(t) then Some(SuspiciousFormat)
      else None
  }

  /** A missing, empty or whitespace-only key, and only such a key, gets the "Please enter" message. */
  lemma BlankKeyIsEmptyError(key: Option<string>)
    ensures ValidateApiKey(key) == Some(Empty) <==> key.None? || AllJsWhitespace(key.value)
  {
  }

  /** The accepted keys, described independently of the order of the checks. */
  ghost predicate WellFormedKey(t: string) {
    exists suffix :: t == KeyPrefix + suffix && |suffix| >= MinSuffixLength && AllKeyChars(suffix) && |t| <= MaxKeyLength
  }

  /**
   * A key is accepted exactly when, once trimmed, it is `gsk_` followed by at least
   * 40 characters of `[A-Za-z0-9_-]`, and is at most 200 characters long.
   */
  lemma ValidIffWellFormed(key: string)
    ensures ValidateApiKey(Some(key)) == None <==> WellFormedKey(Trim(key))
  {
    var t := Trim(key);
    if ValidateApiKey(Some(key)) == None {
      var suffix := t[|KeyPrefix|..];
      assert t == KeyPrefix + suffix;
      KeyTextIsBmp(t);
      assert WellFormedKey(t);
    } else if WellFormedKey(t) {
      var suffix :| t == KeyPrefix + suffix && |suffix| >= MinSuffixLength && AllKeyChars(suffix) && |t| <= MaxKeyLength;
      assert t[|KeyPrefix|..] == suffix;
      assert t[..|KeyPrefix|] == KeyPrefix;
      KeyTextIsBmp(t);
      assert false;
    }
  }

  /** `gsk_` followed by key characters is ASCII, so its JavaScript length is its character count. */
  lemma KeyTextIsBmp(t: string)
    requires StartsWith(t, KeyPrefix) && AllKeyChars(t[|KeyPrefix|..])
    ensures Utf16Length(t) == |t|
  {
    forall i | 0 <= i < |t| ensures t[i] as int <= 0xFFFF {
      if i >= |KeyPrefix| {
        assert t[|KeyPrefix|..][i - |KeyPrefix|] == t[i];
      } else {
        assert t[..|KeyPrefix|][i] == t[i];
      }
    }
    Utf16LengthOfBmp(t);
  }

  /** One format rule: the error it reports and whether the trimmed key passes it. */
  datatype Rule = Rule(error: KeyError, passes: bool)

  /** The five format rules on a trimmed, non-empty key, in the order they are applied. */
  function Rules(t: string): seq<Rule> {
    [ Rule(BadPrefix, StartsWith(t, KeyPrefix)),
      Rule(TooShort, Utf16Length(t) >= MinKeyLength),
      Rule(TooLong, Utf16Length(t) <= MaxKeyLength),
      Rule(BadChars, MatchesKeyPattern(t)),
      Rule(SuspiciousFormat, MatchesGroqPattern(t)) ]
  }

  /** The error of the first rule that fails, if any. */
  function FirstFailure(rules: seq<Rule>): (r: Option<KeyError>)
    ensures r.None? <==> forall i :: 0 <= i < |rules| ==> rules[i].passes
  {
    if |rules| == 0 then None
    else if !rules[0].passes then Some(rules[0].error)
    else
      assert forall i :: 1 <= i < |rules| ==> rules[1..][i - 1] == rules[i];
      FirstFailure(rules[1..])
  }

  /** For a non-blank key the validator reports the first failing rule, in the fixed order. */
  lemma {:induction false} ValidateIsFirstFailure(key: string)
    requires !AllJsWhitespace(key)
    ensures ValidateApiKey(Some(key)) == FirstFailure(Rules(Trim(key)))
  {
    var r0 := Rules(Trim(key));
    var r1, r2, r3, r4 := r0[1..], r0[2..], r0[3..], r0[4..];
    assert r0[1..][1..] == r2 && r2[1..] == r3 && r3[1..] == r4 && r4[1..] == [];
    assert FirstFailure(r4) == if r4[0].passes then None else Some(r4[0].error);
    assert FirstFailure(r3) == if r3[0].passes then FirstFailure(r4) else Some(r3[0].error);
    assert FirstFailure(r2) == if r2[0].passes then FirstFailure(r3) else Some(r2[0].error);
    assert FirstFailure(r1) == if r1[0].passes then FirstFailure(r2) else Some(r1[0].error);
    assert FirstFailure(r0) == if r0[0].passes then FirstFailure(r1) else Some(r0[0].error);
  }

  /**
   * A key of 20 to 43 characters that is `gsk_` followed by allowed characters gets
   * the "format appears incorrect" message, not the "too short" one.
   */
  lemma ShortWellCharKeyIsSuspicious(key: string)
    requires var t := Trim(key);
      StartsWith(t, KeyPrefix) && |t| > |KeyPrefix| && AllKeyChars(t[|KeyPrefix|..])
      && MinKeyLength <= |t| < |KeyPrefix| + MinSuffixLength
    ensures ValidateApiKey(Some(key)) == Some(SuspiciousFormat)
  {
    KeyTextIsBmp(Trim(key));
  }

  /**
   * The JavaScript value held in `validationError`: `null` (the key is valid), `''`
   * (the input is blank) or the message of a refusal, which is never empty.
   */
  datatype FieldError = NullError | BlankError | Refusal(reason: KeyError) {
    function JsValue(): Option<string> {
      match this
      case NullError => None
      case BlankError => Some("")
      case Refusal(e) => Some(Message(e))
    }

    /** JavaScript truthiness: `null` and `''` show nothing. */
    predicate Shown() {
      Refusal?
    }
  }

  /** What `validateApiKey` hands back, as the value stored in `validationError`. */
  function AsFieldError(r: Option<KeyError>): FieldError {
    match r
    case None => NullError
    case Some(e) => Refusal(e)
  }

  /** What a keystroke stores in `validationError`: `''` for blank input, else the validator's answer. */
  function InlineError(value: string): (r: FieldError)
    ensures r.JsValue() == Some("") <==> AllJsWhitespace(value)
    ensures r.Shown() ==>
      ValidateApiKey(Some(value)).Some? && r.JsValue() == Some(Message(ValidateApiKey(Some(value)).value))
  {
    if Trim(value) == "" then BlankError else AsFieldError(ValidateApiKey(Some(value)))
  }

  /** The inline message shows exactly when the input is non-blank and breaks a rule. */
  lemma InlineErrorShownIff(value: string)
    ensures InlineError(value).Shown() <==> !AllJsWhitespace(value) && ValidateApiKey(Some(value)).Some?
  {
  }

  /** Submission goes ahead exactly when a keystroke with the same text would store `null`. */
  lemma SubmitGateAgreesWithInlineError(value: string)
    ensures ValidateApiKey(Some(value)) == None <==> InlineError(value) == NullError
  {
  }

  /** The `Authorization` header the submit handler builds: the template prints `null` when no jwt is stored. */
  function BearerHeader(storedJwt: Option<string>): (h: string)
    ensures StartsWith(h, "Bearer ")
    ensures storedJwt.None? ==> h == "Bearer null"
  {
    "Bearer " + (match storedJwt case None => "null" case Some(j) => j)
  }

  /** The error notification after a failed save: the server's `error` when non-empty, else a fallback. */
  function SaveFailureText(serverError: Option<string>): (text: string)
    ensures text != ""
    ensures serverError.Some? && serverError.value != "" ==> text == serverError.value
  {
    match serverError
    case Some(msg) => if msg != "" then msg else "Failed to save API key"
    case None => "Failed to save API key"
  }

  /** Calls the panel makes to the backend. */
  datatype Request = GetSetupStatus | PostSetupKey(apiKey: string, authorization: string)

  /** Toast notifications: a refused key, a saved key, a failed save with its text. */
  datatype Notice = RefusedToast(reason: KeyError) | SavedToast | SaveFailedToast(text: string)

  /** How the `POST /api/setup-key` call settled. */
  datatype SaveOutcome = Saved | SaveFailed(serverError: Option<string>)

  /** What the panel renders. */
  datatype View = CheckingStatus | Configured | KeyForm(inlineText: Option<string>)

  class SetupPanel {
    var apiKey: string
    var saving: bool
    var hasApiKey: bool
    var checking: bool
    var validationError: FieldError
    /** The backend calls issued so far, in order. */
    var requests: seq<Request>
    /** The notifications shown so far, in order. */
    var notices: seq<Notice>
    /** How many times `onSetupComplete` has been called. */
    var completions: nat
    /** Whether the parent passed an `onSetupComplete` callback. */
    const hasCallback: bool

    /** The initial state of the component. */
    constructor (hasCallback: bool)
      ensures this.hasCallback == hasCallback
      ensures apiKey == "" && !saving && !hasApiKey && checking && validationError == BlankError
      ensures requests == [] && notices == [] && completions == 0
    {
      this.hasCallback := hasCallback;
      apiKey, saving, hasApiKey, checking, validationError := "", false, false, true, BlankError;
      requests, notices, completions := [], [], 0;
    }

    /** The effect on `[user]`: the status query is issued only when a user is present. */
    method UserChanged(userPresent: bool)
      modifies this`requests
      ensures requests == old(requests) + (if userPresent then [GetSetupStatus] else [])
    {
      if userPresent {
        requests := requests + [GetSetupStatus];
      }
    }

    /**
     * `checkApiKeyStatus` after its request settles: `response` is the truthiness of
     * `has_api_key`, or `None` when the call failed. `checking` always ends false.
     */
    method StatusSettled(response: Option<bool>)
      modifies this`hasApiKey, this`checking
      ensures !checking
      ensures hasApiKey == (if response.Some? then response.value else old(hasApiKey))
    {
      if response.Some? {
        hasApiKey := response.value;
      }
      checking := false;
    }

    /** `handleApiKeyChange`: store the text and refresh the inline message. */
    method KeyChanged(value: string)
      modifies this`apiKey, this`validationError
      ensures apiKey == value && validationError == InlineError(value)
    {
      apiKey := value;
      if Trim(value) != "" {
        var validation := ValidateApiKey(Some(value));
        validationError := AsFieldError(validation);
      } else {
        validationError := BlankError;
      }
    }

    /**
     * `handleSubmit` up to its `await`: a key that breaks a rule is reported and
     * nothing else happens; otherwise `saving` is set and the trimmed key is posted.
     */
    method SubmitStarted(storedJwt: Option<string>) returns (posted: bool)
      modifies this`saving, this`requests, this`notices
      ensures posted <==> ValidateApiKey(Some(apiKey)) == None
      ensures !posted ==>
        saving == old(saving) && requests == old(requests)
        && notices == old(notices) + [RefusedToast(ValidateApiKey(Some(apiKey)).value)]
      ensures posted ==>
        saving && notices == old(notices)
        && requests == old(requests) + [PostSetupKey(Trim(apiKey), BearerHeader(storedJwt))]
    {
      var currentValidationError := ValidateApiKey(Some(apiKey));
      if currentValidationError.Some? {
        notices := notices + [RefusedToast(currentValidationError.value)];
        return false;
      }
      saving := true;
      requests := requests + [PostSetupKey(Trim(apiKey), BearerHeader(storedJwt))];
      posted := true;
    }

    /**
     * `handleSubmit` after the POST settles. On success the key is marked present,
     * the field is cleared and `onSetupComplete` is called if given; on failure only
     * a notification is added. `saving` ends false either way.
     */
    method SubmitSettled(outcome: SaveOutcome)
      modifies this`saving, this`hasApiKey, this`apiKey, this`notices, this`completions
      ensures !saving
      ensures outcome.Saved? ==>
        hasApiKey && apiKey == ""
        && notices == old(notices) + [SavedToast]
        && completions == old(completions) + (if hasCallback then 1 else 0)
      ensures outcome.SaveFailed? ==>
        hasApiKey == old(hasApiKey) && apiKey == old(apiKey) && completions == old(completions)
        && notices == old(notices) + [SaveFailedToast(SaveFailureText(outcome.serverError))]
    {
      match outcome {
        case Saved =>
          notices := notices + [SavedToast];
          hasApiKey := true;
          apiKey := "";
          if hasCallback {
            completions := completions + 1;
          }
        case SaveFailed(serverError) =>
          notices := notices + [SaveFailedToast(SaveFailureText(serverError))];
      }
      saving := false;
    }

    /** The "Update API Key" button: back to the form, with no backend call. */
    method UpdateKeyClicked()
      modifies this`hasApiKey
      ensures !hasApiKey
    {
      hasApiKey := false;
    }

    /** The render decision: the spinner while checking, then the confirmation or the form. */
    function CurrentView(): (v: View)
      reads this
      ensures v == CheckingStatus <==> checking
      ensures v == Configured <==> !checking && hasApiKey
      ensures v.KeyForm? ==> (v.inlineText.Some? <==> validationError.Shown())
      ensures v.KeyForm? && v.inlineText.Some? ==>
        v.inlineText.value != "" && Some(v.inlineText.value) == validationError.JsValue()
    {
      if checking then CheckingStatus
      else if hasApiKey then Configured
      else KeyForm(if validationError.Shown() then validationError.JsValue() else None)
    }
  }
}

=== FILE: app.dfy ===
/**
 * The frontend's shell: the request interceptor that adds the stored JWT to
 * every outgoing call, and the route table that puts the dashboard behind the
 * cookie guard.
 */
module App {
  import opened Wrappers
  import ProtectedRoute
  import ApiKeySetup
  import Strings

  const AuthorizationHeader := "Authorization"

  /** A stored JWT counts only when it is present and non-empty, as JavaScript's truthiness has it. */
  predicate JwtTruthy(storedJwt: Option<string>) {
    storedJwt.Some? && storedJwt.value != ""
  }

  /** The headers after the interceptor has run on them. */
  function AuthHeaders(headers: map<string, string>, storedJwt: Option<string>): (r: map<string, string>)
    ensures JwtTruthy(storedJwt) ==>
      r.Keys == headers.Keys + {AuthorizationHeader} && r[AuthorizationHeader] == "Bearer " + storedJwt.value
    ensures !JwtTruthy(storedJwt) ==> r == headers
    ensures forall k :: k in headers && k != AuthorizationHeader ==> k in r && r[k] == headers[k]
  {
    if JwtTruthy(storedJwt) then headers[AuthorizationHeader := "Bearer " + storedJwt.value] else headers
  }

  /** Running the interceptor a second time changes nothing. */
  lemma AuthHeadersIdempotent(headers: map<string, string>, storedJwt: Option<string>)
    ensures AuthHeaders(AuthHeaders(headers, storedJwt), storedJwt) == AuthHeaders(headers, storedJwt)
  {
    var once := AuthHeaders(headers, storedJwt);
    if JwtTruthy(storedJwt) {
      assert AuthHeaders(once, storedJwt).Keys == once.Keys;
    }
  }

  /** The request configuration axios hands to the interceptor. */
  class RequestConfig {
    var headers: map<string, string>
    const url: string
    const verb: string

    constructor (url: string, verb: string, headers: map<string, string>)
      ensures this.url == url && this.verb == verb && this.headers == headers
    {
      this.url := url;
      this.verb := verb;
      this.headers := headers;
    }
  }

  /** The request interceptor: it updates the configuration in place and hands it back. */
  method Intercept(config: RequestConfig, storedJwt: Option<string>) returns (r: RequestConfig)
    modifies config
    ensures r == config
    ensures config.headers == AuthHeaders(old(config.headers), storedJwt)
  {
    if JwtTruthy(storedJwt) {
      config.headers := config.headers[AuthorizationHeader := "Bearer " + storedJwt.value];
    }
    r := config;
  }

  /**
   * The save request of the setup panel already carries a header built from the
   * same stored value, so after the interceptor it still reads as the panel
   * built it: `Bearer <jwt>`, and `Bearer null` when nothing is stored.
   */
  lemma SetupKeyHeaderSurvivesInterceptor(storedJwt: Option<string>)
    ensures var sent := AuthHeaders(map[AuthorizationHeader := ApiKeySetup.BearerHeader(storedJwt)], storedJwt);
      AuthorizationHeader in sent && sent[AuthorizationHeader] == ApiKeySetup.BearerHeader(storedJwt)
      && (storedJwt.None? ==> sent[AuthorizationHeader] == "Bearer null")
  {
  }

  /** The pages of the app. */
  datatype Page = HomePage | LoginPage | DashboardPage

  /** A route's element: a page, or a page wrapped in the guard. */
  datatype Element = Plain(page: Page) | Guarded(page: Page)

  /** The route table, matched exactly on the path. */
  function RouteFor(path: string): Option<Element> {
    if path == "/" then Some(Plain(HomePage))
    else if path == "/login" then Some(Plain(LoginPage))
    else if path == "/dashboard" then Some(Guarded(DashboardPage))
    else None
  }

  /** What the browser ends up showing for a path. */
  datatype Screen = Shows(page: Page) | Redirected(to: string) | Blank | Crashed

  /** Rendering a path with the current cookies; `parse` is as in the guard. */
  function Render(path: string, cookie: string, parse: string -> ProtectedRoute.Parsed): Screen {
    match RouteFor(path)
    case None => Blank
    case Some(Plain(p)) => Shows(p)
    case Some(Guarded(p)) =>
      match ProtectedRoute.Guard(cookie, parse)
      case RenderChildren => Shows(p)
      case RedirectToLogin => Redirected("/login")
      case RenderFails => Crashed
  }

  /** The dashboard is shown only at `/dashboard`, and there exactly when the guard admits. */
  lemma DashboardOnlyThroughGuard(path: string, cookie: string, parse: string -> ProtectedRoute.Parsed)
    ensures Render(path, cookie, parse) == Shows(DashboardPage) <==>
      path == "/dashboard" && ProtectedRoute.Guard(cookie, parse) == ProtectedRoute.RenderChildren
  {
  }

  /** Every other path renders the same whatever the cookies say. */
  lemma OtherPathsIgnoreCookies(path: string, c1: string, c2: string, p1: string -> ProtectedRoute.Parsed, p2: string -> ProtectedRoute.Parsed)
    requires path != "/dashboard"
    ensures Render(path, c1, p1) == Render(path, c2, p2)
  {
  }

  /** An unauthenticated visit to the dashboard lands on the login page. */
  lemma DashboardWithoutCookieRedirects(cookie: string, parse: string -> ProtectedRoute.Parsed)
    requires Strings.Free("; " + cookie, ProtectedRoute.Marker("user"))
    ensures Render("/dashboard", cookie, parse) == Redirected("/login")
  {
    ProtectedRoute.NoCookieRedirects(cookie, parse);
  }
}

=== FILE: code_review_agent.dfy ===
/**
 * The review pipeline: a four-stage graph that collects the patches of a pull
 * request, fills them into the prompt template, asks the model for a review,
 * frames the answer with a header and footer, and posts it as a comment.
 * GitHub and the language model are parameters.
 */
module CodeReviewAgent {
  import opened Wrappers
  import opened Strings

  /** A changed file as GitHub lists it; `patch` is absent for binary or oversized files. */
  datatype PrFile = PrFile(filename: string, patch: Option<string>)

  /** Python's truthiness of `file.patch`: present and non-empty. */
  predicate HasPatch(f: PrFile) {
    f.patch.Some? && f.patch.value != ""
  }

  /** The text one kept file contributes. */
  function Entry(f: PrFile): (e: string)
    requires HasPatch(f)
    ensures StartsWith(e, "File: ") && EndsWith(e, f.patch.value)
  {
    "File: " + f.filename + "\n" + f.patch.value
  }

  /** The entries of the files that have a patch, in the order listed. */
  function FormatChanges(files: seq<PrFile>): (changes: seq<string>)
    ensures |changes| <= |files|
  {
    if |files| == 0 then []
    else
      var last := files[|files| - 1];
      FormatChanges(files[..|files| - 1]) + (if HasPatch(last) then [Entry(last)] else [])
  }

  /** Formatting two runs of files one after the other formats each run in turn: the order is kept. */
  lemma {:induction false} FormatChangesAppend(xs: seq<PrFile>, ys: seq<PrFile>)
    ensures FormatChanges(xs + ys) == FormatChanges(xs) + FormatChanges(ys)
    decreases |ys|
  {
    if |ys| == 0 {
      assert xs + ys == xs;
    } else {
      var init := ys[..|ys| - 1];
      assert (xs + ys)[..|xs + ys| - 1] == xs + init;
      FormatChangesAppend(xs, init);
    }
  }

  /** Exactly the files with a patch contribute an entry. */
  lemma {:induction false} FormatChangesMembers(files: seq<PrFile>, e: string)
    ensures e in FormatChanges(files) <==> exists f :: f in files && HasPatch(f) && e == Entry(f)
  {
    if |files| > 0 {
      var init, last := files[..|files| - 1], files[|files| - 1];
      assert files == init + [last];
      FormatChangesMembers(init, e);
      if e in FormatChanges(files) && e !in FormatChanges(init) {
        assert HasPatch(last) && e == Entry(last);
      }
      if exists f :: f in files && HasPatch(f) && e == Entry(f) {
        var f :| f in files && HasPatch(f) && e == Entry(f);
        if f != last {
          assert f in init;
        }
      }
    }
  }

  /** The state the graph threads through its stages. */
  datatype ReviewState = ReviewState(repoName: string, prNumber: int, codeChanges: seq<string>, feedback: seq<string>)

  /** What a stage returns: the keys it sets; the others keep their value. */
  datatype Update = Update(codeChanges: Option<seq<string>>, feedback: Option<seq<string>>)

  function Apply(s: ReviewState, u: Update): (t: ReviewState)
    ensures t.repoName == s.repoName && t.prNumber == s.prNumber
  {
    ReviewState(
      s.repoName, s.prNumber,
      if u.codeChanges.Some? then u.codeChanges.value else s.codeChanges,
      if u.feedback.Some? then u.feedback.value else s.feedback)
  }

  /**
   * `fetch_pr_changes`: walk the pull request's files and append an entry for
   * each one that has a patch. `filesOf` stands for the GitHub lookup.
   */
  method FetchPrChanges(s: ReviewState, filesOf: (string, int) -> seq<PrFile>) returns (u: Update)
    ensures u == Update(Some(FormatChanges(filesOf(s.repoName, s.prNumber))), None)
  {
    var files := filesOf(s.repoName, s.prNumber);
    var codeChanges: seq<string> := [];
    var i := 0;
    while i < |files|
      invariant 0 <= i <= |files|
      invariant codeChanges == FormatChanges(files[..i])
    {
      var file := files[i];
      assert files[..i + 1][..i] == files[..i];
      if file.patch.Some? && file.patch.value != "" {
        codeChanges := codeChanges + ["File: " + file.filename + "\n" + file.patch.value];
      }
      i := i + 1;
    }
    assert files[..i] == files;
    u := Update(Some(codeChanges), None);
  }

  const Placeholder := "{all_code}"
  const ChangeSeparator := "\n\n"
  const SystemPrompt := "You are a code review expert."

  /** The placeholder cannot overlap itself: its `{` occurs only at the start. */
  lemma PlaceholderNoBorder()
    ensures NoBorder(Placeholder)
  {
    NoBorderWhenHeadUnique(Placeholder);
  }

  /** The prompt `analyze_code` sends: every placeholder in the template replaced by the joined changes. */
  function Prompt(template: string, codeChanges: seq<string>): string {
    Replace(template, Placeholder, Join(codeChanges, ChangeSeparator))
  }

  /** A template made of placeholder-free pieces around its placeholders gets the changes in each gap. */
  lemma PromptFillsEveryPlaceholder(pieces: seq<string>, codeChanges: seq<string>)
    requires |pieces| > 0
    requires forall p :: p in pieces ==> Free(p, Placeholder)
    ensures Prompt(Join(pieces, Placeholder), codeChanges) == Join(pieces, Join(codeChanges, ChangeSeparator))
  {
    PlaceholderNoBorder();
    ReplaceAll(pieces, Placeholder, Join(codeChanges, ChangeSeparator));
  }

  /** A template without the placeholder is sent as it is, without any of the code. */
  lemma PromptWithoutPlaceholder(template: string, codeChanges: seq<string>)
    requires Free(template, Placeholder)
    ensures Prompt(template, codeChanges) == template
  {
    ReplaceAbsent(template, Placeholder, Join(codeChanges, ChangeSeparator));
  }

  /** `analyze_code`: the model's answer to the prompt becomes the one feedback item. */
  function AnalyzeCode(s: ReviewState, template: string, llm: (string, string) -> string): (u: Update)
    ensures u.codeChanges.None? && u.feedback.Some? && |u.feedback.value| == 1
  {
    Update(None, Some([llm(SystemPrompt, Prompt(template, s.codeChanges))]))
  }

  const NoFeedback := "No feedback generated."

  /** The first feedback item, or the fallback text when there is none. */
  function FirstOrDefault(feedback: seq<string>): string {
    if |feedback| > 0 then feedback[0] else NoFeedback
  }

  const FrameHeader := "## \U{1F916} AI Code Review Analysis\n\n"
  const FrameFooter := "\n\n---\n*This review was generated automatically by the SmartReview AI agent. Please review the suggestions and address any critical issues before merging.*"

  /** The review text with its header above and its footer below. */
  function Framed(text: string): (r: string)
    ensures |r| == |FrameHeader| + |text| + |FrameFooter|
    ensures r[..|FrameHeader|] == FrameHeader && r[|FrameHeader| + |text|..] == FrameFooter
  {
    FrameHeader + text + FrameFooter
  }

  /** Strips the header and footer again. */
  function Unframe(r: string): string
    requires |r| >= |FrameHeader| + |FrameFooter|
  {
    r[|FrameHeader|..|r| - |FrameFooter|]
  }

  /** Framing loses nothing: the review can be read back out of the comment. */
  lemma UnframeFramed(text: string)
    ensures Unframe(Framed(text)) == text
  {
    var r := Framed(text);
    assert r == FrameHeader + text + FrameFooter;
    assert r[|FrameHeader|..|r| - |FrameFooter|] == text;
  }

  /** `provide_feedback`: the first item (or the fallback), framed, as the only feedback item. */
  function ProvideFeedback(s: ReviewState): (u: Update)
    ensures u.codeChanges.None? && u.feedback.Some? && |u.feedback.value| == 1
    ensures |u.feedback.value[0]| >= |FrameHeader| + |FrameFooter|
    ensures StartsWith(u.feedback.value[0], FrameHeader) && EndsWith(u.feedback.value[0], FrameFooter)
    ensures Unframe(u.feedback.value[0]) == FirstOrDefault(s.feedback)
  {
    UnframeFramed(FirstOrDefault(s.feedback));
    Update(None, Some([Framed(FirstOrDefault(s.feedback))]))
  }

  /** A comment on a pull request. */
  datatype Comment = Comment(repoName: string, prNumber: int, body: string)

  /** `post_feedback`: comment the first item (or the fallback) on the pull request and update nothing. */
  function PostFeedback(s: ReviewState): (r: (Update, Comment))
    ensures r.0 == Update(None, None)
    ensures r.1.repoName == s.repoName && r.1.prNumber == s.prNumber
    ensures |s.feedback| > 0 ==> r.1.body == s.feedback[0]
    ensures |s.feedback| == 0 ==> r.1.body == NoFeedback
  {
    (Update(None, None), Comment(s.repoName, s.prNumber, FirstOrDefault(s.feedback)))
  }

  /** The stages of the graph, with its entry and exit. */
  datatype Node = Start | FetchPr | Analyze | Feedback | Post | End

  /** The graph's edges, one successor per node. */
  const Edges: map<Node, Node> := map[Start := FetchPr, FetchPr := Analyze, Analyze := Feedback, Feedback := Post, Post := End]

  function Rank(n: Node): nat {
    match n
    case Start => 5
    case FetchPr => 4
    case Analyze => 3
    case Feedback => 2
    case Post => 1
    case End => 0
  }

  /** The stages run after `n`, following the edges until the exit. */
  function Walk(n: Node): seq<Node>
    decreases Rank(n)
  {
    if n !in Edges then []
    else
      var m := Edges[n];
      if m == End then [] else [m] + Walk(m)
  }

  /** The graph runs each stage once, in the order fetch, analyze, feedback, post. */
  lemma StageOrder()
    ensures Walk(Start) == [FetchPr, Analyze, Feedback, Post]
  {
    assert Walk(Post) == [];
    assert Walk(Feedback) == [Post];
    assert Walk(Analyze) == [Feedback, Post];
    assert Walk(FetchPr) == [Analyze, Feedback, Post];
  }

  /** What a run of the graph has produced so far: the state and the comments posted. */
  datatype Run = Run(state: ReviewState, posted: seq<Comment>)

  /** One stage applied to a run; the fetch stage by the result `FetchPrChanges` promises. */
  function Stage(n: Node, r: Run, filesOf: (string, int) -> seq<PrFile>,
                 template: string, llm: (string, string) -> string): Run
  {
    match n
    case FetchPr =>
      Run(Apply(r.state, Update(Some(FormatChanges(filesOf(r.state.repoName, r.state.prNumber))), None)), r.posted)
    case Analyze => Run(Apply(r.state, AnalyzeCode(r.state, template, llm)), r.posted)
    case Feedback => Run(Apply(r.state, ProvideFeedback(r.state)), r.posted)
    case Post =>
      var (u, c) := PostFeedback(r.state);
      Run(Apply(r.state, u), r.posted + [c])
    case _ => r
  }

  /** The stages applied one after the other, each update merged into the state. */
  function RunStages(stages: seq<Node>, r: Run, filesOf: (string, int) -> seq<PrFile>,
                     template: string, llm: (string, string) -> string): Run
    decreases |stages|
  {
    if |stages| == 0 then r else RunStages(stages[1..], Stage(stages[0], r, filesOf, template, llm), filesOf, template, llm)
  }

  /** The run the graph starts from: no changes and no feedback yet, nothing posted. */
  function Initial(repoName: string, prNumber: int): Run {
    Run(ReviewState(repoName, prNumber, [], []), [])
  }

  /**
   * A run along the graph's edges leaves the formatted changes and the framed
   * review in the state and posts that framed review exactly once.
   */
  lemma GraphRun(repoName: string, prNumber: int, filesOf: (string, int) -> seq<PrFile>,
                 template: string, llm: (string, string) -> string)
    ensures var changes := FormatChanges(filesOf(repoName, prNumber));
      var review := Framed(llm(SystemPrompt, Prompt(template, changes)));
      RunStages(Walk(Start), Initial(repoName, prNumber), filesOf, template, llm)
        == Run(ReviewState(repoName, prNumber, changes, [review]), [Comment(repoName, prNumber, review)])
  {
    StageOrder();
    var stages := Walk(Start);
    assert stages[1..] == [Analyze, Feedback, Post];
    assert stages[1..][1..] == [Feedback, Post];
    assert stages[1..][1..][1..] == [Post];
    assert stages[1..][1..][1..][1..] == [];
  }

  /** The posted comment carries the model's review intact between the header and the footer. */
  lemma PostedReviewIsModelAnswer(repoName: string, prNumber: int, filesOf: (string, int) -> seq<PrFile>,
                                  template: string, llm: (string, string) -> string)
    ensures var posted := RunStages(Walk(Start), Initial(repoName, prNumber), filesOf, template, llm).posted;
      |posted| == 1 && |posted[0].body| >= |FrameHeader| + |FrameFooter|
      && Unframe(posted[0].body) == llm(SystemPrompt, Prompt(template, FormatChanges(filesOf(repoName, prNumber))))
  {
    GraphRun(repoName, prNumber, filesOf, template, llm);
    UnframeFramed(llm(SystemPrompt, Prompt(template, FormatChanges(filesOf(repoName, prNumber)))));
  }

  /**
   * `code_review_agent.invoke`: follow the graph from its entry, running each
   * stage on the state the previous one left, until the exit.
   */
  method Invoke(repoName: string, prNumber: int, filesOf: (string, int) -> seq<PrFile>,
                template: string, llm: (string, string) -> string)
    returns (final: ReviewState, posted: seq<Comment>)
    ensures Run(final, posted) == RunStages(Walk(Start), Initial(repoName, prNumber), filesOf, template, llm)
    ensures var changes := FormatChanges(filesOf(repoName, prNumber));
      var review := Framed(llm(SystemPrompt, Prompt(template, changes)));
      final == ReviewState(repoName, prNumber, changes, [review]) && posted == [Comment(repoName, prNumber, review)]
  {
    var stages := Walk(Start);
    var r := Initial(repoName, prNumber);
    var i := 0;
    while i < |stages|
      invariant 0 <= i <= |stages|
      invariant RunStages(stages[i..], r, filesOf, template, llm)
        == RunStages(stages, Initial(repoName, prNumber), filesOf, template, llm)
    {
      var n := stages[i];
      if n == FetchPr {
        var u := FetchPrChanges(r.state, filesOf);
        r := Run(Apply(r.state, u), r.posted);
      } else {
        r := Stage(n, r, filesOf, template, llm);
      }
      assert stages[i..][1..] == stages[i + 1..];
      i := i + 1;
    }
    assert stages[i..] == [];
    final, posted := r.state, r.posted;
    GraphRun(repoName, prNumber, filesOf, template, llm);
  }
}

=== FILE: database.dfy ===
/**
 * The backend's user store: one document per GitHub id in the `users`
 * collection, holding the user's Groq API key encrypted with the process's
 * Fernet key. Fernet is modelled symbolically: a token records the key that
 * made it, and decrypting with another key fails.
 */
module Database {
  import opened Wrappers

  /** A Fernet token: the key it was made with, the random IV it used, and the text it protects. */
  datatype Token = Token(key: string, iv: nat, plaintext: string)

  datatype CryptoError = InvalidToken

  /** `encrypt_api_key`, with the randomness Fernet draws passed in as `iv`. */
  function Encrypt(key: string, iv: nat, apiKey: string): (t: Token)
    ensures t.key == key
  {
    Token(key, iv, apiKey)
  }

  /** `decrypt_api_key`: only a token made with the same key opens. */
  function Decrypt(key: string, t: Token): (r: Result<string, CryptoError>)
    ensures r.Ok? <==> t.key == key
  {
    if t.key == key then Ok(t.plaintext) else Err(InvalidToken)
  }

  /** Decryption undoes encryption under the same key, whatever IV was used. */
  lemma DecryptEncrypt(key: string, iv: nat, apiKey: string)
    ensures Decrypt(key, Encrypt(key, iv, apiKey)) == Ok(apiKey)
  {
  }

  /** A document of the `users` collection: the encrypted key if set, and whatever other fields it holds. */
  datatype UserDoc = UserDoc(groqApiKey: Option<Token>, otherFields: map<string, string>)

  /** The update `create_or_update` performs: `$set` the key field, creating the document when absent. */
  function Upsert(users: map<int, UserDoc>, githubId: int, token: Token): (r: map<int, UserDoc>)
    ensures r.Keys == users.Keys + {githubId}
    ensures r[githubId].groqApiKey == Some(token)
    ensures githubId in users ==> r[githubId].otherFields == users[githubId].otherFields
    ensures forall id :: id in users && id != githubId ==> r[id] == users[id]
  {
    var doc := if githubId in users then users[githubId].(groqApiKey := Some(token)) else UserDoc(Some(token), map[]);
    users[githubId := doc]
  }

  /** The same user updated twice keeps only the second key. */
  lemma LatestWriteWins(users: map<int, UserDoc>, githubId: int, first: Token, second: Token)
    ensures Upsert(Upsert(users, githubId, first), githubId, second) == Upsert(users, githubId, second)
  {
  }

  /** What `get_decrypted_api_key` computes on a connected store. */
  function DecryptedKey(users: map<int, UserDoc>, githubId: int, key: string): (r: Result<Option<string>, CryptoError>)
    ensures r == Ok(None) <==> githubId !in users || users[githubId].groqApiKey.None?
    ensures r.Err? <==> githubId in users && users[githubId].groqApiKey.Some? && users[githubId].groqApiKey.value.key != key
  {
    if githubId in users && users[githubId].groqApiKey.Some? then
      match Decrypt(key, users[githubId].groqApiKey.value)
      case Ok(k) => Ok(Some(k))
      case Err(e) => Err(e)
    else Ok(None)
  }

  /** Reading a key back after storing it gives the key that was stored. */
  lemma ReadAfterWrite(users: map<int, UserDoc>, githubId: int, key: string, iv: nat, apiKey: string)
    ensures DecryptedKey(Upsert(users, githubId, Encrypt(key, iv, apiKey)), githubId, key) == Ok(Some(apiKey))
  {
  }

  /** Storing one user's key leaves every other user's key as it was. */
  lemma WriteLeavesOthers(users: map<int, UserDoc>, githubId: int, other: int, key: string, token: Token)
    requires other != githubId
    ensures DecryptedKey(Upsert(users, githubId, token), other, key) == DecryptedKey(users, other, key)
  {
  }

  /**
   * Keys stored under one Fernet key cannot be read by a process that generated
   * another (the key is regenerated at every start when none is configured):
   * the read raises instead of returning `None`.
   */
  lemma RestartWithNewKeyRaises(users: map<int, UserDoc>, githubId: int, oldKey: string, newKey: string, iv: nat, apiKey: string)
    requires oldKey != newKey
    ensures DecryptedKey(Upsert(users, githubId, Encrypt(oldKey, iv, apiKey)), githubId, newKey) == Err(InvalidToken)
  {
  }

  datatype DbError = DatabaseNotInitialized

  /** The `users` collection behind the static methods of `User`, with the process's cipher key. */
  class UserStore {
    /** Whether `mongo.db` is set. */
    var connected: bool
    var users: map<int, UserDoc>
    const cipherKey: string

    constructor (cipherKey: string, connected: bool)
      ensures this.cipherKey == cipherKey && this.connected == connected && users == map[]
    {
      this.cipherKey := cipherKey;
      this.connected := connected;
      users := map[];
    }

    /** `User.create_or_update`: refuse when the database is not initialised, otherwise upsert the encrypted key. */
    method CreateOrUpdate(githubId: int, apiKey: string, iv: nat) returns (r: Result<(), DbError>)
      modifies this`users
      ensures !connected ==> r == Err(DatabaseNotInitialized) && users == old(users)
      ensures connected ==> r == Ok(()) && users == Upsert(old(users), githubId, Encrypt(cipherKey, iv, apiKey))
    {
      if !connected {
        return Err(DatabaseNotInitialized);
      }
      var encrypted := Encrypt(cipherKey, iv, apiKey);
      users := Upsert(users, githubId, encrypted);
      r := Ok(());
    }

    /** `User.get_by_github_id`: the document, or `None` when absent or when the database is not initialised. */
    method GetByGithubId(githubId: int) returns (doc: Option<UserDoc>)
      ensures doc.Some? <==> connected && githubId in users
      ensures doc.Some? ==> doc.value == users[githubId]
    {
      if !connected {
        return None;
      }
      doc := if githubId in users then Some(users[githubId]) else None;
    }

    /** `User.has_api_key`: a document exists and holds the key field. */
    method HasApiKey(githubId: int) returns (b: bool)
      ensures b <==> connected && githubId in users && users[githubId].groqApiKey.Some?
    {
      if !connected {
        return false;
      }
      var doc := GetByGithubId(githubId);
      b := doc.Some? && doc.value.groqApiKey.Some?;
    }

    /**
     * `User.get_decrypted_api_key`: `None` when the database is not initialised,
     * the user is unknown or has no key; otherwise the decrypted key, and the
     * decryption error escapes when the token was made with another key.
     */
    method GetDecryptedApiKey(githubId: int) returns (r: Result<Option<string>, CryptoError>)
      ensures !connected ==> r == Ok(None)
      ensures connected ==> r == DecryptedKey(users, githubId, cipherKey)
    {
      if !connected {
        return Ok(None);
      }
      var doc := GetByGithubId(githubId);
      if doc.Some? && doc.value.groqApiKey.Some? {
        var k := Decrypt(cipherKey, doc.value.groqApiKey.value);
        r := if k.Ok? then Ok(Some(k.value)) else Err(k.error);
      } else {
        r := Ok(None);
      }
    }
  }
}

=== FILE: home.dfy ===
/**
 * The home page of the frontend: reading the result of a GitHub App installation
 * or OAuth round trip from the URL's query parameters, once, then removing them;
 * fetching the signed-in user; the sign-in gate in front of installation; sign-out.
 */
module Home {
  import opened Wrappers

  /** One `name=value` pair of the query string, after URL decoding. */
  datatype Param = Param(name: string, value: string)

  /** The position of the first pair called `name`, as `URLSearchParams` looks it up. */
  function Find(ps: seq<Param>, name: string): (r: Option<nat>)
    ensures r.Some? ==>
      r.value < |ps| && ps[r.value].name == name && forall j :: 0 <= j < r.value ==> ps[j].name != name
    ensures r.None? ==> forall j :: 0 <= j < |ps| ==> ps[j].name != name
  {
    if |ps| == 0 then None
    else if ps[0].name == name then Some(0)
    else
      match Find(ps[1..], name)
      case None => None
      case Some(i) => Some(i + 1)
  }

  /** `params.has(name)`. */
  predicate Has(ps: seq<Param>, name: string) {
    Get(ps, name).Some?
  }

  /** `params.get(name)`: the value of the first pair with that name, or `null`. */
  function Get(ps: seq<Param>, name: string): Option<string> {
    match Find(ps, name)
    case None => None
    case Some(i) => Some(ps[i].value)
  }

  /** `get` returns the value of a pair with that name that no earlier pair shares. */
  lemma GetIsFirstValue(ps: seq<Param>, name: string, value: string)
    ensures Get(ps, name) == Some(value) <==>
      exists i :: 0 <= i < |ps| && ps[i] == Param(name, value) && forall j :: 0 <= j < i ==> ps[j].name != name
  {
    if Get(ps, name) == Some(value) {
      var i := Find(ps, name).value;
      assert ps[i] == Param(name, value);
    }
    if exists i :: 0 <= i < |ps| && ps[i] == Param(name, value) && forall j :: 0 <= j < i ==> ps[j].name != name {
      var i :| 0 <= i < |ps| && ps[i] == Param(name, value) && forall j :: 0 <= j < i ==> ps[j].name != name;
      var k := Find(ps, name).value;
      assert !(k < i) && !(i < k);
    }
  }

  /** A later pair never changes what `has` or `get` see for a name already present. */
  lemma {:induction false} LaterPairIgnored(ps: seq<Param>, p: Param, name: string)
    requires Has(ps, name) || p.name != name
    ensures Find(ps + [p], name) == Find(ps, name)
  {
    if |ps| > 0 && ps[0].name != name {
      assert (ps + [p])[1..] == ps[1..] + [p];
      LaterPairIgnored(ps[1..], p, name);
    }
  }

  /** `repos`: JavaScript's `Number` of the parameter, or the literal 0 when the parameter is absent. */
  datatype Repos = DefaultZero | NumberOf(raw: string)

  /** The banner shown after an installation round trip. */
  datatype InstallResult = InstallResult(installed: bool, repos: Repos, error: Option<string>)

  /** What one reading of the query string decides. */
  datatype RedirectEffects = RedirectEffects(installResult: Option<InstallResult>, refetchUser: bool)

  /** The query-parameter effect of the home page, before the URL is rewritten. */
  function ParseRedirect(ps: seq<Param>): (r: RedirectEffects)
    ensures r.installResult.Some? <==> Has(ps, "installed")
    ensures r.installResult.Some? ==>
      var res := r.installResult.value;
      (res.installed <==> Get(ps, "installed") == Some("1"))
      && (res.repos == DefaultZero <==> !Has(ps, "repos"))
      && (res.repos.NumberOf? ==> Get(ps, "repos") == Some(res.repos.raw))
      && (res.error.None? <==> Get(ps, "error") in {None, Some("")})
      && (res.error.Some? ==> Get(ps, "error") == res.error)
    ensures r.refetchUser <==> Get(ps, "auth") == Some("1")
  {
    var installResult :=
      if Has(ps, "installed") then
        var installed := Get(ps, "installed") == Some("1");
        var repos := if Has(ps, "repos") then NumberOf(Get(ps, "repos").value) else DefaultZero;
        var error := if Get(ps, "error") == Some("") then None else Get(ps, "error");
        Some(InstallResult(installed, repos, error))
      else None;
    var refetch := Has(ps, "auth") && Get(ps, "auth") == Some("1");
    RedirectEffects(installResult, refetch)
  }

  /** The four names the effect reads. */
  predicate IsRedirectParam(name: string) {
    name == "installed" || name == "repos" || name == "error" || name == "auth"
  }

  /** Other parameters, wherever they appear, change nothing. */
  lemma UnrelatedParamIgnored(ps: seq<Param>, qs: seq<Param>, p: Param)
    requires !IsRedirectParam(p.name)
    ensures ParseRedirect(ps + [p] + qs) == ParseRedirect(ps + qs)
  {
    GetSkips(ps, qs, p, "installed");
    GetSkips(ps, qs, p, "repos");
    GetSkips(ps, qs, p, "error");
    GetSkips(ps, qs, p, "auth");
  }

  lemma {:induction false} GetSkips(ps: seq<Param>, qs: seq<Param>, p: Param, name: string)
    requires p.name != name
    ensures Get(ps + [p] + qs, name) == Get(ps + qs, name)
  {
    if |ps| == 0 {
      assert ps + [p] + qs == [p] + qs;
      assert ps + qs == qs;
      assert ([p] + qs)[1..] == qs;
      match Find(qs, name)
      case None =>
      case Some(i) =>
        assert Find([p] + qs, name) == Some(i + 1);
        assert ([p] + qs)[i + 1] == qs[i];
    } else if ps[0].name != name {
      var xs, ys := ps + [p] + qs, ps + qs;
      assert xs[1..] == ps[1..] + [p] + qs;
      assert ys[1..] == ps[1..] + qs;
      GetSkips(ps[1..], qs, p, name);
      match Find(ys[1..], name)
      case None =>
        assert Find(ys, name).None?;
        assert Find(xs, name).None?;
      case Some(i) =>
        assert Find(ys, name) == Some(i + 1);
        assert Find(xs[1..], name).Some?;
    } else {
      assert (ps + [p] + qs)[0] == ps[0] == (ps + qs)[0];
    }
  }

  /** Once the query string is gone, reading it again decides nothing. */
  lemma SecondParseIsNoOp()
    ensures ParseRedirect([]) == RedirectEffects(None, false)
  {
  }

  /** The identity record `/api/user` answers with. */
  datatype Identity = Identity(id: int, login: string, name: Option<string>, avatar: Option<string>)

  /** Calls the page makes to the backend. */
  datatype Request = GetUser | PostLogout

  /** Where the page sends the browser: a route of the app, or a backend URL. */
  datatype Navigation = AppRoute(path: string) | External(url: string)

  class HomePage {
    /** The backend's base URL, fixed at build time. */
    const serverUrl: string
    var installing: bool
    var installResult: Option<InstallResult>
    var user: Option<Identity>
    /** The query string of the current URL. */
    var query: seq<Param>
    /** The backend calls issued so far, in order. */
    var requests: seq<Request>
    /** The navigations performed so far, in order. */
    var navigations: seq<Navigation>

    /** The page as first rendered, with the URL it was loaded from. */
    constructor (serverUrl: string, query: seq<Param>)
      ensures this.serverUrl == serverUrl && this.query == query
      ensures !installing && installResult.None? && user.None?
      ensures requests == [] && navigations == []
    {
      this.serverUrl := serverUrl;
      this.query := query;
      installing, installResult, user := false, None, None;
      requests, navigations := [], [];
    }

    /** The mount effect: `fetchUser` issues the identity query. */
    method FetchUser()
      modifies this`requests
      ensures requests == old(requests) + [GetUser]
    {
      requests := requests + [GetUser];
    }

    /** An identity query settles: the user is the response data, or `null` when it failed. */
    method UserFetchSettled(response: Option<Identity>)
      modifies this`user
      ensures user == response
    {
      user := response;
    }

    /**
     * The query-parameter effect: show the installation result if there is one,
     * refetch the user after a successful login, and always clear the query string.
     */
    method ConsumeRedirect()
      modifies this`installResult, this`requests, this`query
      ensures var effects := ParseRedirect(old(query));
        installResult == (if effects.installResult.Some? then effects.installResult else old(installResult))
        && requests == old(requests) + (if effects.refetchUser then [GetUser] else [])
      ensures query == []
    {
      var effects := ParseRedirect(query);
      if effects.installResult.Some? {
        installResult := effects.installResult;
      }
      if effects.refetchUser {
        FetchUser();
      }
      query := [];
    }

    /** "Dismiss" on the installation banner. */
    method DismissInstallResult()
      modifies this`installResult
      ensures installResult.None?
    {
      installResult := None;
    }

    /** `handleInstallApp`: without a user go to the login page, otherwise to the installation flow. */
    method InstallApp()
      modifies this`installing, this`navigations
      ensures user.None? ==> installing == old(installing) && navigations == old(navigations) + [AppRoute("/login")]
      ensures user.Some? ==> installing && navigations == old(navigations) + [External(serverUrl + "/install")]
    {
      if user.None? {
        navigations := navigations + [AppRoute("/login")];
        return;
      }
      installing := true;
      navigations := navigations + [External(serverUrl + "/install")];
    }

    /** `signInWithGitHub`: start the OAuth flow. */
    method SignInWithGitHub()
      modifies this`navigations
      ensures navigations == old(navigations) + [External(serverUrl + "/auth/login")]
    {
      navigations := navigations + [External(serverUrl + "/auth/login")];
    }

    /** `signOut` up to its `await`: the logout call. */
    method SignOutStarted()
      modifies this`requests
      ensures requests == old(requests) + [PostLogout]
    {
      requests := requests + [PostLogout];
    }

    /** `signOut` after the logout call settles, whether it succeeded or threw: the user is cleared. */
    method SignOutSettled()
      modifies this`user
      ensures user.None?
    {
      user := None;
    }
  }

  /** A redirect back from installation with `?installed=1&repos=3`. */
  lemma InstalledThreeRepos()
    ensures ParseRedirect([Param("installed", "1"), Param("repos", "3")])
      == RedirectEffects(Some(InstallResult(true, NumberOf("3"), None)), false)
  {
  }

  /** `?auth=0` neither shows a banner nor refetches the user. */
  lemma FailedAuthDoesNothing()
    ensures ParseRedirect([Param("auth", "0")]) == RedirectEffects(None, false)
  {
  }
}

=== FILE: protected_route.dfy ===
/**
 * The route guard of the frontend: it reads the `user` cookie out of
 * `document.cookie` by splitting on `"; user="`, and renders its children
 * only when the cookie decodes to a truthy JSON value.
 */
module ProtectedRoute {
  import opened Wrappers
  import opened Strings

  /** The separator `getCookie` splits on: `"; " + name + "="`. */
  function Marker(name: string): (d: string)
    ensures |d| == |name| + 3 && d[0] == ';'
  {
    "; " + name + "="
  }

  /**
   * `getCookie(name)`: prepend `"; "`, split on the marker, and when there are
   * exactly two pieces take the second one up to its first `;`. Any other
   * number of pieces gives `undefined`.
   */
  function GetCookie(cookie: string, name: string): Option<string> {
    var parts := Split("; " + cookie, Marker(name));
    if |parts| == 2 then Some(Split(parts[1], ";")[0]) else None
  }

  /**
   * `s` is `a`, the marker `d`, the value `v` and the rest `b`, where the
   * marker occurs exactly once, `v` holds no `;` and `b` is empty or starts the
   * next cookie with `;`.
   */
  ghost predicate CookieSplit(s: string, d: string, a: string, v: string, b: string) {
    s == a + d + v + b && Free(a, d) && Free(v + b, d)
    && ';' !in v && (b == [] || b[0] == ';')
  }

  /** A string without the character holds no occurrence of the one-character string. */
  lemma FreeOfChar(t: string, c: char)
    requires c !in t
    ensures Free(t, [c])
  {
    forall i | 0 <= i && i + 1 <= |t| ensures !OccursAt(t, [c], i) {
      assert t[i..i + 1] == [t[i]];
    }
  }

  /** The first piece of a split on one character is the longest prefix without it. */
  lemma FirstSegment(t: string, c: char)
    ensures var v := Split(t, [c])[0];
      |v| <= |t| && v == t[..|v|] && c !in v && (|v| == |t| || t[|v|] == c)
  {
    var v := Split(t, [c])[0];
    match IndexOf(t, [c])
    case None =>
      assert v == t;
      forall k | 0 <= k < |t| ensures t[k] != c {
        assert !OccursAt(t, [c], k);
        assert t[k..k + 1] == [t[k]];
      }
    case Some(i) =>
      SplitAt(t, [c], i);
      assert v == t[..i];
      assert t[i..i + 1] == [c];
      forall k | 0 <= k < i ensures t[k] != c {
        assert !OccursAt(t, [c], k);
        assert t[k..k + 1] == [t[k]];
      }
  }

  /** What `getCookie` returns is a value that stood after the only marker. */
  lemma GetCookieSound(cookie: string, name: string)
    requires GetCookie(cookie, name).Some?
    ensures exists a, b :: CookieSplit("; " + cookie, Marker(name), a, GetCookie(cookie, name).value, b)
  {
    var s, d := "; " + cookie, Marker(name);
    var parts := Split(s, d);
    SplitPartsFree(s, d);
    JoinSplit(s, d);
    assert parts[1..] == [parts[1]];
    assert s == parts[0] + d + parts[1];
    var t := parts[1];
    var v := Split(t, ";")[0];
    FirstSegment(t, ';');
    var b := t[|v|..];
    assert t == v + b;
    assert parts[0] in parts && t in parts;
    assert CookieSplit(s, d, parts[0], v, b);
  }

  /**
   * Conversely, a cookie whose name holds no `;` and whose marker occurs
   * exactly once is found with its whole value.
   */
  lemma GetCookieComplete(cookie: string, name: string, a: string, v: string, b: string)
    requires ';' !in name
    requires CookieSplit("; " + cookie, Marker(name), a, v, b)
    ensures GetCookie(cookie, name) == Some(v)
  {
    var s, d := "; " + cookie, Marker(name);
    assert forall i :: 0 < i < |d| ==> d[i] != d[0] by {
      forall i | 0 < i < |d| ensures d[i] != d[0] {
        if 2 <= i < 2 + |name| {
          assert d[i] == name[i - 2];
        }
      }
    }
    NoBorderWhenHeadUnique(d);
    var t := v + b;
    assert Join([a, t], d) == s by {
      JoinCons(a, [t], d);
    }
    SplitJoin([a, t], d);
    FreeOfChar(v, ';');
    if b == [] {
      assert t == v;
      SplitSingleIffFree(v, ";");
    } else {
      NoBorderWhenHeadUnique(";");
      assert t == v + ";" + b[1..];
      FirstOccurrenceAfterFreePrefix(v, ";", b[1..]);
      SplitAt(t, ";", |v|);
    }
  }

  /** A cookie string in which the marker never occurs yields no value. */
  lemma AbsentCookie(cookie: string, name: string)
    requires Free("; " + cookie, Marker(name))
    ensures GetCookie(cookie, name).None?
  {
    SplitSingleIffFree("; " + cookie, Marker(name));
  }

  /** Two non-overlapping markers (a repeated cookie name) also yield no value. */
  lemma RepeatedCookie(cookie: string, name: string, i: nat, j: nat)
    requires OccursAt("; " + cookie, Marker(name), i)
    requires OccursAt("; " + cookie, Marker(name), j)
    requires i + |Marker(name)| <= j
    ensures GetCookie(cookie, name).None?
  {
    SplitTwoOccurrences("; " + cookie, Marker(name), i, j);
  }

  /** One mismatching character rules out an occurrence at `i`. */
  lemma MismatchAt(s: string, d: string, i: int, k: nat)
    requires k < |d| && (0 <= i + k < |s| ==> s[i + k] != d[k])
    ensures !OccursAt(s, d, i)
  {
    if 0 <= i && i + |d| <= |s| {
      assert s[i..i + |d|][k] == s[i + k];
    }
  }

  /**
   * An example of `AbsentCookie`: a cookie whose name only ends in `user` is not
   * taken for the `user` cookie, because the marker starts with `"; "`.
   */
  lemma LongerNameNotMatched()
    ensures GetCookie("xuser=abc", "user").None?
  {
    var s, d := "; xuser=abc", "; user=";
    assert "; " + "xuser=abc" == s;
    assert Marker("user") == d;
    forall i ensures !OccursAt(s, d, i) {
      if i == 0 {
        MismatchAt(s, d, i, 2);
      } else {
        MismatchAt(s, d, i, 0);
      }
    }
    AbsentCookie("xuser=abc", "user");
  }

  /** How the decoded cookie value fares in `JSON.parse(decodeURIComponent(...))`. */
  datatype Parsed = Truthy | Falsy | Throws

  /** What the guard renders. */
  datatype GuardOutcome = RenderChildren | RedirectToLogin | RenderFails

  /**
   * The guard: an absent or empty `user` cookie redirects to `/login`; otherwise
   * the parsed value decides, and a value that fails to decode or parse makes
   * the render throw. `parse` stands for `JSON.parse(decodeURIComponent(v))`.
   */
  function Guard(cookie: string, parse: string -> Parsed): GuardOutcome {
    match GetCookie(cookie, "user")
    case None => RedirectToLogin
    case Some(v) =>
      if v == "" then RedirectToLogin
      else match parse(v)
        case Truthy => RenderChildren
        case Falsy => RedirectToLogin
        case Throws => RenderFails
  }

  /**
   * The children are shown exactly when the cookie string holds a single
   * `user` cookie whose non-empty value parses to something truthy.
   */
  lemma GuardAdmitsIff(cookie: string, parse: string -> Parsed)
    ensures Guard(cookie, parse) == RenderChildren <==>
      exists a, v, b :: CookieSplit("; " + cookie, Marker("user"), a, v, b) && v != "" && parse(v) == Truthy
  {
    if Guard(cookie, parse) == RenderChildren {
      GetCookieSound(cookie, "user");
    }
    if exists a, v, b :: CookieSplit("; " + cookie, Marker("user"), a, v, b) && v != "" && parse(v) == Truthy {
      var a, v, b :| CookieSplit("; " + cookie, Marker("user"), a, v, b) && v != "" && parse(v) == Truthy;
      GetCookieComplete(cookie, "user", a, v, b);
    }
  }

  /** Without a `user` cookie the guard always redirects, whatever the parser. */
  lemma NoCookieRedirects(cookie: string, parse: string -> Parsed)
    requires Free("; " + cookie, Marker("user"))
    ensures Guard(cookie, parse) == RedirectToLogin
  {
    AbsentCookie(cookie, "user");
  }
}

=== FILE: strings.dfy ===
/**
 * String operations that the frontend (JavaScript) and the review agent (Python)
 * rely on: `split` and `join` on a non-empty separator, which behave the same in
 * both languages, Python's `str.replace`, and JavaScript's `trim` and `length`.
 */
module Strings {
  import opened Wrappers

  predicate StartsWith(s: string, prefix: string) {
    |prefix| <= |s| && s[..|prefix|] == prefix
  }

  predicate EndsWith(s: string, suffix: string) {
    |suffix| <= |s| && s[|s| - |suffix|..] == suffix
  }

  /** `d` occurs in `s` at position `i`. */
  predicate OccursAt(s: string, d: string, i: int) {
    0 <= i && i + |d| <= |s| && s[i..i + |d|] == d
  }

  /** `d` occurs nowhere in `s`. */
  ghost predicate Free(s: string, d: string) {
    forall i :: !OccursAt(s, d, i)
  }

  /** No proper suffix of `d` is also a prefix of it, so two occurrences of `d` never overlap. */
  predicate NoBorder(d: string) {
    forall k :: 0 < k < |d| ==> d[k..] != d[..|d| - k]
  }

  lemma OccursInSlice(s: string, d: string, lo: nat, hi: nat, j: int)
    requires lo <= hi <= |s|
    ensures OccursAt(s[lo..hi], d, j) <==> 0 <= j && lo + j + |d| <= hi && OccursAt(s, d, lo + j)
  {
    if 0 <= j && j + |d| <= hi - lo {
      var a, b := s[lo..hi][j..j + |d|], s[lo + j..lo + j + |d|];
      assert |a| == |b|;
      assert forall k :: 0 <= k < |a| ==> a[k] == b[k];
      assert a == b;
    }
  }

  /** The leftmost position at which `d` occurs in `s`, as `indexOf`/`find` compute it. */
  function IndexOf(s: string, d: string): (r: Option<nat>)
    requires |d| > 0
    ensures r.Some? ==> OccursAt(s, d, r.value) && forall j :: 0 <= j < r.value ==> !OccursAt(s, d, j)
    ensures r.None? ==> Free(s, d)
    decreases |s|
  {
    if |s| < |d| then None
    else if s[..|d|] == d then Some(0)
    else
      var tail := IndexOf(s[1..], d);
      assert forall j :: OccursAt(s[1..], d, j) <==> 0 <= j && OccursAt(s, d, j + 1) by {
        forall j ensures OccursAt(s[1..], d, j) <==> 0 <= j && OccursAt(s, d, j + 1) {
          OccursInSlice(s, d, 1, |s|, j);
        }
      }
      assert !OccursAt(s, d, 0);
      assert forall j :: OccursAt(s, d, j) ==> j >= 1 && OccursAt(s[1..], d, j - 1);
      match tail
      case None => None
      case Some(i) => Some(i + 1)
  }

  /**
   * `s.split(d)` for a non-empty separator: the pieces between the leftmost
   * non-overlapping occurrences of `d`, scanning left to right.
   */
  function Split(s: string, d: string): (parts: seq<string>)
    requires |d| > 0
    ensures |parts| >= 1
    decreases |s|
  {
    match IndexOf(s, d)
    case None => [s]
    case Some(i) => [s[..i]] + Split(s[i + |d|..], d)
  }

  /** `sep.join(parts)` in Python, `parts.join(sep)` in JavaScript. */
  function Join(parts: seq<string>, sep: string): string {
    if |parts| == 0 then ""
    else if |parts| == 1 then parts[0]
    else parts[0] + sep + Join(parts[1..], sep)
  }

  /** Python's `s.replace(pattern, replacement)`: every non-overlapping occurrence, left to right. */
  function Replace(s: string, pattern: string, replacement: string): string
    requires |pattern| > 0
  {
    Join(Split(s, pattern), replacement)
  }

  /** Joining the pieces of a split with the separator gives back the original string. */
  lemma {:induction false} JoinSplit(s: string, d: string)
    requires |d| > 0
    ensures Join(Split(s, d), d) == s
    decreases |s|
  {
    match IndexOf(s, d)
    case None =>
    case Some(i) =>
      var rest := s[i + |d|..];
      JoinSplit(rest, d);
      SplitAt(s, d, i);
      JoinCons(s[..i], Split(rest, d), d);
  }

  /** One step of `Split`: the piece before the first occurrence, then the split of what follows it. */
  lemma SplitAt(s: string, d: string, i: nat)
    requires |d| > 0 && IndexOf(s, d) == Some(i)
    ensures Split(s, d) == [s[..i]] + Split(s[i + |d|..], d)
    ensures s == s[..i] + d + s[i + |d|..]
  {
    Decompose(s, d, i);
  }

  /** Text around an occurrence is the part before it, the separator, and the part after it. */
  lemma Decompose(s: string, d: string, i: nat)
    requires OccursAt(s, d, i)
    ensures s == s[..i] + d + s[i + |d|..]
  {
    assert s[i..] == s[i..i + |d|] + s[i + |d|..];
    assert s == s[..i] + s[i..];
  }

  lemma JoinCons(a: string, parts: seq<string>, sep: string)
    requires |parts| > 0
    ensures Join([a] + parts, sep) == a + sep + Join(parts, sep)
  {
    assert ([a] + parts)[1..] == parts;
  }

  /** No piece of a split contains the separator. */
  lemma {:induction false} SplitPartsFree(s: string, d: string)
    requires |d| > 0
    ensures forall p :: p in Split(s, d) ==> Free(p, d)
    decreases |s|
  {
    match IndexOf(s, d)
    case None =>
    case Some(i) =>
      var rest := s[i + |d|..];
      SplitPartsFree(rest, d);
      forall j ensures !OccursAt(s[..i], d, j) {
        OccursInSlice(s, d, 0, i, j);
      }
      assert Split(s, d) == [s[..i]] + Split(rest, d);
  }

  /** A split yields a single piece exactly when the separator does not occur. */
  lemma SplitSingleIffFree(s: string, d: string)
    requires |d| > 0
    ensures |Split(s, d)| == 1 <==> Free(s, d)
  {
    match IndexOf(s, d)
    case None =>
    case Some(i) =>
      assert OccursAt(s, d, i);
  }

  /** An occurrence in `s` at or after `lo` is an occurrence in the suffix from `lo`. */
  lemma OccursInSuffix(s: string, d: string, lo: nat, j: nat)
    requires lo <= j && OccursAt(s, d, j)
    ensures OccursAt(s[lo..], d, j - lo)
  {
    assert s[lo..][j - lo..j - lo + |d|] == s[j..j + |d|];
  }

  /** Text in which the separator occurs splits into at least two pieces. */
  lemma SplitNotFree(t: string, d: string, m: nat)
    requires |d| > 0 && OccursAt(t, d, m)
    ensures |Split(t, d)| >= 2
  {
    assert IndexOf(t, d).Some?;
  }

  /** Two occurrences that do not overlap cut the text into at least three pieces. */
  lemma SplitTwoOccurrences(s: string, d: string, i: nat, j: nat)
    requires |d| > 0 && OccursAt(s, d, i) && OccursAt(s, d, j) && i + |d| <= j
    ensures |Split(s, d)| >= 3
  {
    var k := IndexOf(s, d).value;
    assert k <= i;
    var rest := s[k + |d|..];
    SplitAt(s, d, k);
    assert |Split(s, d)| == 1 + |Split(rest, d)|;
    OccursInSuffix(s, d, k + |d|, j);
    SplitNotFree(rest, d, j - (k + |d|));
  }

  /** A separator whose first character never recurs in it cannot overlap itself. */
  lemma NoBorderWhenHeadUnique(d: string)
    requires |d| > 0 && forall i :: 0 < i < |d| ==> d[i] != d[0]
    ensures NoBorder(d)
  {
    forall k | 0 < k < |d| ensures d[k..] != d[..|d| - k] {
      assert d[k..][0] == d[k];
      assert d[..|d| - k][0] == d[0];
    }
  }

  /**
   * When `p` does not contain a self-non-overlapping `d`, the first occurrence of
   * `d` in `p + d + t` is the one right after `p`.
   */
  lemma FirstOccurrenceAfterFreePrefix(p: string, d: string, t: string)
    requires |d| > 0 && NoBorder(d) && Free(p, d)
    ensures IndexOf(p + d + t, d) == Some(|p|)
  {
    var s := p + d + t;
    assert s[|p|..|p| + |d|] == d;
    assert OccursAt(s, d, |p|);
    forall j | 0 <= j < |p| ensures !OccursAt(s, d, j) {
      if j + |d| <= |p| {
        assert s[..|p|] == p;
        assert !OccursAt(p, d, j);
        OccursInSlice(s, d, 0, |p|, j);
      } else if j + |d| <= |s| {
        // an occurrence at j would overlap the one at |p| by |d| - k characters
        var k := |p| - j;
        assert 0 < k < |d|;
        assert d[k..] != d[..|d| - k];
        assert s[|p|..j + |d|] == d[..|d| - k] by {
          assert s[|p|..|p| + |d|][..|d| - k] == s[|p|..|p| + |d| - k];
        }
        assert s[j..j + |d|][k..] == s[|p|..j + |d|];
      }
    }
  }

  /** Splitting the join of separator-free pieces gives the pieces back. */
  lemma {:induction false} SplitJoin(parts: seq<string>, d: string)
    requires |d| > 0 && NoBorder(d) && |parts| > 0
    requires forall p :: p in parts ==> Free(p, d)
    ensures Split(Join(parts, d), d) == parts
    decreases |parts|
  {
    var p := parts[0];
    assert p in parts;
    if |parts| == 1 {
      assert IndexOf(p, d).None?;
    } else {
      var tail := parts[1..];
      assert forall q :: q in tail ==> q in parts;
      SplitJoin(tail, d);
      assert parts == [p] + tail;
      JoinCons(p, tail, d);
      FirstOccurrenceAfterFreePrefix(p, d, Join(tail, d));
      SplitAt(p + d + Join(tail, d), d, |p|);
      assert (p + d + Join(tail, d))[..|p|] == p;
      assert (p + d + Join(tail, d))[|p| + |d|..] == Join(tail, d);
    }
  }

  /** `replace` substitutes at every occurrence of a self-non-overlapping pattern. */
  lemma ReplaceAll(parts: seq<string>, pattern: string, replacement: string)
    requires |pattern| > 0 && NoBorder(pattern) && |parts| > 0
    requires forall p :: p in parts ==> Free(p, pattern)
    ensures Replace(Join(parts, pattern), pattern, replacement) == Join(parts, replacement)
  {
    SplitJoin(parts, pattern);
  }

  /** A string that does not contain the pattern is left as it is by `replace`. */
  lemma ReplaceAbsent(s: string, pattern: string, replacement: string)
    requires |pattern| > 0 && Free(s, pattern)
    ensures Replace(s, pattern, replacement) == s
  {
    SplitSingleIffFree(s, pattern);
  }

  // ---------------------------------------------------------------- JavaScript

  /** The characters JavaScript's `String.prototype.trim` removes: WhiteSpace and LineTerminator. */
  predicate IsJsWhitespace(c: char) {
    c == '\t' || c == '\n' || c == '\U{000B}' || c == '\U{000C}' || c == '\r' || c == ' '
    || c == '\U{00A0}' || c == '\U{1680}' || ('\U{2000}' <= c <= '\U{200A}')
    || c == '\U{2028}' || c == '\U{2029}' || c == '\U{202F}' || c == '\U{205F}'
    || c == '\U{3000}' || c == '\U{FEFF}'
  }

  predicate AllJsWhitespace(s: string) {
    forall i :: 0 <= i < |s| ==> IsJsWhitespace(s[i])
  }

  /** How many whitespace characters `s` starts with. */
  function LeadingSpace(s: string): (n: nat)
    ensures n <= |s|
    ensures forall i :: 0 <= i < n ==> IsJsWhitespace(s[i])
    ensures n == |s| || !IsJsWhitespace(s[n])
  {
    if |s| > 0 && IsJsWhitespace(s[0]) then
      assert forall i :: 1 <= i < |s| ==> s[1..][i - 1] == s[i];
      1 + LeadingSpace(s[1..])
    else 0
  }

  /** How many whitespace characters `s` ends with. */
  function TrailingSpace(s: string): (n: nat)
    ensures n <= |s|
    ensures forall i :: |s| - n <= i < |s| ==> IsJsWhitespace(s[i])
    ensures n == |s| || !IsJsWhitespace(s[|s| - n - 1])
  {
    if |s| > 0 && IsJsWhitespace(s[|s| - 1]) then 1 + TrailingSpace(s[..|s| - 1]) else 0
  }

  /**
   * `s.trim()`: `s` without its leading and trailing whitespace. The result is empty
   * exactly when `s` is all whitespace, and otherwise starts and ends with a
   * character that is not whitespace.
   */
  function Trim(s: string): (r: string)
    ensures |r| <= |s|
    ensures r == [] <==> AllJsWhitespace(s)
    ensures r == [] || (!IsJsWhitespace(r[0]) && !IsJsWhitespace(r[|r| - 1]))
  {
    var lead := LeadingSpace(s);
    var trail := TrailingSpace(s[lead..]);
    TrimBounds(s, lead, trail);
    s[lead..|s| - trail]
  }

  lemma TrimBounds(s: string, lead: nat, trail: nat)
    requires lead == LeadingSpace(s) && trail == TrailingSpace(s[lead..])
    ensures lead + trail <= |s|
    ensures lead + trail == |s| <==> AllJsWhitespace(s)
    ensures lead + trail < |s| ==> !IsJsWhitespace(s[lead]) && !IsJsWhitespace(s[|s| - trail - 1])
  {
    TrailIsSpace(s, lead, trail);
    if lead < |s| {
      EdgesNotSpace(s, lead, trail);
    }
    NothingLeftIffAllSpace(s, lead, trail);
  }

  /** A non-whitespace character at `lead` stops the trailing run short of it. */
  lemma EdgesNotSpace(s: string, lead: nat, trail: nat)
    requires lead < |s| && !IsJsWhitespace(s[lead]) && lead + trail <= |s|
    requires forall i :: |s| - trail <= i < |s| ==> IsJsWhitespace(s[i])
    ensures lead + trail < |s|
  {
  }

  /** Trimming consumes the whole string exactly when it is all whitespace. */
  lemma NothingLeftIffAllSpace(s: string, lead: nat, trail: nat)
    requires lead == LeadingSpace(s) && trail == TrailingSpace(s[lead..])
    ensures lead + trail == |s| <==> AllJsWhitespace(s)
  {
    TrailIsSpace(s, lead, trail);
    if AllJsWhitespace(s) {
      assert lead == |s|;
    }
  }

  /** The trimmed text stands in `s` right after its leading whitespace. */
  lemma TrimIsInfix(s: string)
    ensures var lead, r := LeadingSpace(s), Trim(s);
      lead + |r| <= |s| && forall k :: 0 <= k < |r| ==> r[k] == s[lead + k]
  {
    var lead := LeadingSpace(s);
    var trail := TrailingSpace(s[lead..]);
    assert lead + trail <= |s|;
    var r := s[lead..|s| - trail];
    assert Trim(s) == r;
  }

  /** What trimming removes, before and after the result, is whitespace only. */
  lemma TrimRemovesOnlySpace(s: string)
    ensures var lead, r := LeadingSpace(s), Trim(s);
      (forall i :: 0 <= i < lead ==> IsJsWhitespace(s[i]))
      && (forall i :: lead + |r| <= i < |s| ==> IsJsWhitespace(s[i]))
  {
    var lead := LeadingSpace(s);
    var trail := TrailingSpace(s[lead..]);
    TrimBounds(s, lead, trail);
    TrailIsSpace(s, lead, trail);
    assert |Trim(s)| == |s| - trail - lead;
  }

  /** The facts about the trailing run of `s[lead..]`, stated on `s` itself. */
  lemma TrailIsSpace(s: string, lead: nat, trail: nat)
    requires lead <= |s| && trail == TrailingSpace(s[lead..])
    ensures lead + trail <= |s|
    ensures forall i :: |s| - trail <= i < |s| ==> IsJsWhitespace(s[i])
    ensures lead + trail == |s| || !IsJsWhitespace(s[|s| - trail - 1])
  {
    var rest := s[lead..];
    forall i | |s| - trail <= i < |s| ensures IsJsWhitespace(s[i]) {
      assert rest[i - lead] == s[i];
    }
    if lead + trail < |s| {
      assert rest[|rest| - trail - 1] == s[|s| - trail - 1];
    }
  }

  /** Trimming twice is trimming once. */
  lemma TrimIdempotent(s: string)
    ensures Trim(Trim(s)) == Trim(s)
  {
    var t := Trim(s);
    if t != [] {
      assert LeadingSpace(t) == 0;
      assert t[0..] == t;
      assert TrailingSpace(t) == 0;
    }
  }

  /** `s.length`: the number of UTF-16 code units; characters beyond U+FFFF take two. */
  function Utf16Length(s: string): (n: nat)
    ensures |s| <= n <= 2 * |s|
  {
    if |s| == 0 then 0 else (if s[0] as int > 0xFFFF then 2 else 1) + Utf16Length(s[1..])
  }

  /** For text in the Basic Multilingual Plane, `length` counts characters. */
  lemma {:induction false} Utf16LengthOfBmp(s: string)
    requires forall i :: 0 <= i < |s| ==> s[i] as int <= 0xFFFF
    ensures Utf16Length(s) == |s|
  {
    if |s| > 0 {
      Utf16LengthOfBmp(s[1..]);
    }
  }
}

=== FILE: webhook.dfy ===
/**
 * The backend's HTTP handlers: the webhook signature gate, the rule that decides
 * whether a GitHub event starts one review, and the repository-linking endpoint.
 * HMAC-SHA256, the environment and Flask's body parsing are parameters.
 */
module Webhook {
  import opened Wrappers
  import opened Strings

  newtype byte = x: int | 0 <= x < 256

  /** A JSON document as Python sees it after `get_json()`; only integral numbers are modelled. */
  datatype Json =
    | JNull
    | JBool(b: bool)
    | JNumber(n: int)
    | JString(s: string)
    | JArray(items: seq<Json>)
    | JObject(fields: map<string, Json>)

  /** Python's truthiness of a decoded JSON value. */
  predicate Truthy(j: Json) {
    match j
    case JNull => false
    case JBool(b) => b
    case JNumber(n) => n != 0
    case JString(s) => s != ""
    case JArray(items) => |items| > 0
    case JObject(fields) => |fields| > 0
  }

  /** An exception a handler lets escape. */
  datatype Raised = TypeError | KeyError

  const SignaturePrefix := "sha256="

  /** `hmac.compare_digest` accepts text only when it is all ASCII. */
  predicate IsAscii(s: string) {
    forall i :: 0 <= i < |s| ==> s[i] as int < 128
  }

  /**
   * `verify_signature`: with no secret configured everything passes; otherwise
   * the header must equal `sha256=` followed by the hex HMAC of the payload.
   * A missing or non-ASCII header makes the comparison raise.
   * `hmacHex(secret, payload)` stands for the HMAC-SHA256 hex digest.
   */
  function VerifySignature(secret: Option<string>, hmacHex: (string, seq<byte>) -> string,
                           payload: seq<byte>, signature: Option<string>): (r: Result<bool, Raised>)
    ensures (secret.None? || secret.value == "") ==> r == Ok(true)
    ensures r == Ok(true) && secret.Some? && secret.value != "" ==>
      signature == Some(SignaturePrefix + hmacHex(secret.value, payload))
    ensures r.Err? <==> secret.Some? && secret.value != "" && (signature.None? || !IsAscii(signature.value))
    ensures secret.Some? && secret.value != "" && signature.Some? && IsAscii(signature.value) ==>
      (r == Ok(true) <==> signature.value == SignaturePrefix + hmacHex(secret.value, payload))
  {
    if secret.None? || secret.value == "" then Ok(true)
    else
      var expected := SignaturePrefix + hmacHex(secret.value, payload);
      match signature
      case None => Err(TypeError)
      case Some(sig) =>
        if !IsAscii(sig) then Err(TypeError) else Ok(expected == sig)
  }

  /** How Flask's `get_json()` fares on the request body. */
  datatype Body = Parsed(json: Json) | Unreadable

  /** The body of a response: one of the handler's JSON objects, or one of Flask's error pages. */
  datatype ResponseBody = ErrorJson(error: string) | StatusJson(status: string) | ErrorPage

  datatype Response = Response(code: int, body: ResponseBody)

  /** The review a request starts, with the repository and number exactly as they came in the JSON. */
  datatype Analysis = Analysis(repoName: Json, prNumber: Json)

  datatype WebhookResult = WebhookResult(response: Response, started: Option<Analysis>)

  const Forbidden := Response(403, ErrorJson("Invalid signature"))
  const AnalysisStarted := Response(200, StatusJson("Analysis started"))
  const EventIgnored := Response(200, StatusJson("Event ignored"))
  /** Flask's own answer to an exception the handler lets escape. */
  const ServerError := Response(500, ErrorPage)
  /** Flask's own answer when the body cannot be read as JSON. */
  const ClientError := Response(400, ErrorPage)

  /** The actions of a `pull_request` event that start a review. */
  predicate StartsReview(action: Option<Json>) {
    action in {Some(JString("opened")), Some(JString("synchronize")), Some(JString("reopened"))}
  }

  /** Python's `data[key]`: the field when `data` is an object holding it, else the exception it raises. */
  function Index(data: Json, key: string): (r: Result<Json, Raised>)
    ensures r.Ok? <==> data.JObject? && key in data.fields
  {
    match data
    case JObject(fields) => if key in fields then Ok(fields[key]) else Err(KeyError)
    case _ => Err(TypeError)
  }

  /** Python's `data[outer][inner]`. */
  function Lookup(data: Json, outer: string, inner: string): (r: Result<Json, Raised>)
    ensures r.Ok? <==> Index(data, outer).Ok? && Index(Index(data, outer).value, inner).Ok?
  {
    match Index(data, outer)
    case Err(e) => Err(e)
    case Ok(v) => Index(v, inner)
  }

  /** `github_webhook`: signature gate, body parse, then the event rule. */
  function GithubWebhook(secret: Option<string>, hmacHex: (string, seq<byte>) -> string, payload: seq<byte>,
                         signature: Option<string>, event: Option<string>, body: Body): WebhookResult
  {
    match VerifySignature(secret, hmacHex, payload, signature)
    case Err(_) => WebhookResult(ServerError, None)
    case Ok(false) => WebhookResult(Forbidden, None)
    case Ok(true) =>
      match body
      case Unreadable => WebhookResult(ClientError, None)
      case Parsed(data) =>
        if event != Some("pull_request") then WebhookResult(EventIgnored, None)
        else if !data.JObject? then WebhookResult(ServerError, None)
        else
          var action := if "action" in data.fields then Some(data.fields["action"]) else None;
          if !StartsReview(action) then WebhookResult(EventIgnored, None)
          else
            var name := Lookup(data, "repository", "full_name");
            var number := Lookup(data, "pull_request", "number");
            if name.Ok? && number.Ok? then WebhookResult(AnalysisStarted, Some(Analysis(name.value, number.value)))
            else WebhookResult(ServerError, None)
  }

  /** The signature check passed. */
  predicate Authentic(secret: Option<string>, hmacHex: (string, seq<byte>) -> string, payload: seq<byte>, signature: Option<string>) {
    VerifySignature(secret, hmacHex, payload, signature) == Ok(true)
  }

  /** No review starts without a passing signature, and a started review always answers `Analysis started`. */
  lemma StartedOnlyWhenAuthentic(secret: Option<string>, hmacHex: (string, seq<byte>) -> string, payload: seq<byte>,
                                 signature: Option<string>, event: Option<string>, body: Body)
    ensures var r := GithubWebhook(secret, hmacHex, payload, signature, event, body);
      r.started.Some? ==> Authentic(secret, hmacHex, payload, signature) && r.response == AnalysisStarted
  {
  }

  /**
   * A review starts exactly for an authentic `pull_request` event whose action
   * is opened, synchronize or reopened and whose body holds the repository's
   * `full_name` and the pull request's `number`; those two values are what it
   * starts with.
   */
  lemma StartedIff(secret: Option<string>, hmacHex: (string, seq<byte>) -> string, payload: seq<byte>,
                   signature: Option<string>, event: Option<string>, body: Body, name: Json, number: Json)
    ensures GithubWebhook(secret, hmacHex, payload, signature, event, body).started == Some(Analysis(name, number)) <==>
      Authentic(secret, hmacHex, payload, signature) && event == Some("pull_request")
      && body.Parsed? && body.json.JObject?
      && var fields := body.json.fields;
      "action" in fields && StartsReview(Some(fields["action"]))
      && Index(body.json, "repository").Ok? && Index(fields["repository"], "full_name") == Ok(name)
      && Index(body.json, "pull_request").Ok? && Index(fields["pull_request"], "number") == Ok(number)
  {
  }

  /** With a secret set, a present ASCII header that differs from the expected digest is refused with 403. */
  lemma WrongSignatureForbidden(secret: string, hmacHex: (string, seq<byte>) -> string, payload: seq<byte>,
                                sig: string, event: Option<string>, body: Body)
    requires secret != "" && IsAscii(sig) && sig != SignaturePrefix + hmacHex(secret, payload)
    ensures GithubWebhook(Some(secret), hmacHex, payload, Some(sig), event, body) == WebhookResult(Forbidden, None)
  {
  }

  /** Once past the gate, any event other than `pull_request` with a readable body is ignored. */
  lemma OtherEventsIgnored(secret: Option<string>, hmacHex: (string, seq<byte>) -> string, payload: seq<byte>,
                           signature: Option<string>, event: Option<string>, data: Json)
    requires Authentic(secret, hmacHex, payload, signature) && event != Some("pull_request")
    ensures GithubWebhook(secret, hmacHex, payload, signature, event, Parsed(data)) == WebhookResult(EventIgnored, None)
  {
  }

  /**
   * Past the gate, a `pull_request` event whose object body carries an action
   * other than opened, synchronize or reopened (or none) is ignored as well.
   */
  lemma OtherActionsIgnored(secret: Option<string>, hmacHex: (string, seq<byte>) -> string, payload: seq<byte>,
                            signature: Option<string>, fields: map<string, Json>)
    requires Authentic(secret, hmacHex, payload, signature)
    requires !StartsReview(if "action" in fields then Some(fields["action"]) else None)
    ensures GithubWebhook(secret, hmacHex, payload, signature, Some("pull_request"), Parsed(JObject(fields)))
      == WebhookResult(EventIgnored, None)
  {
  }

  /** A `pull_request` event whose body is JSON but not an object makes `data.get` raise: Flask answers 500. */
  lemma NonObjectPullRequestFails(secret: Option<string>, hmacHex: (string, seq<byte>) -> string, payload: seq<byte>,
                                  signature: Option<string>, data: Json)
    requires Authentic(secret, hmacHex, payload, signature) && !data.JObject?
    ensures GithubWebhook(secret, hmacHex, payload, signature, Some("pull_request"), Parsed(data))
      == WebhookResult(ServerError, None)
  {
  }

  /** A correctly signed request passes the gate: the expected header is ASCII because a hex digest is. */
  lemma CorrectSignaturePasses(secret: string, hmacHex: (string, seq<byte>) -> string, payload: seq<byte>)
    requires secret != "" && IsAscii(hmacHex(secret, payload))
    ensures Authentic(Some(secret), hmacHex, payload, Some(SignaturePrefix + hmacHex(secret, payload)))
  {
    var sig := SignaturePrefix + hmacHex(secret, payload);
    forall i | 0 <= i < |sig| ensures sig[i] as int < 128 {
      if i >= |SignaturePrefix| {
        assert sig[i] == hmacHex(secret, payload)[i - |SignaturePrefix|];
      }
    }
  }

  /** With a secret set, a missing or non-ASCII signature header makes the comparison raise: Flask answers 500, not 403. */
  lemma MissingSignatureFails(secret: string, hmacHex: (string, seq<byte>) -> string, payload: seq<byte>,
                              signature: Option<string>, event: Option<string>, body: Body)
    requires secret != "" && (signature.None? || !IsAscii(signature.value))
    ensures GithubWebhook(Some(secret), hmacHex, payload, signature, event, body) == WebhookResult(ServerError, None)
  {
  }

  /** Past the gate, a body that is not JSON gets Flask's 400, whatever the event. */
  lemma UnreadableBodyRejected(secret: Option<string>, hmacHex: (string, seq<byte>) -> string, payload: seq<byte>,
                               signature: Option<string>, event: Option<string>)
    requires Authentic(secret, hmacHex, payload, signature)
    ensures GithubWebhook(secret, hmacHex, payload, signature, event, Unreadable) == WebhookResult(ClientError, None)
  {
  }

  /**
   * A starting `pull_request` event whose body lacks `repository.full_name` or
   * `pull_request.number` makes the subscript raise: 500, and nothing starts.
   */
  lemma MissingFieldsFail(secret: Option<string>, hmacHex: (string, seq<byte>) -> string, payload: seq<byte>,
                          signature: Option<string>, fields: map<string, Json>)
    requires Authentic(secret, hmacHex, payload, signature)
    requires "action" in fields && StartsReview(Some(fields["action"]))
    requires Lookup(JObject(fields), "repository", "full_name").Err? || Lookup(JObject(fields), "pull_request", "number").Err?
    ensures GithubWebhook(secret, hmacHex, payload, signature, Some("pull_request"), Parsed(JObject(fields)))
      == WebhookResult(ServerError, None)
  {
  }

  const RepoRequired := Response(400, ErrorJson("repo_name required"))
  const LinkedSuffix := " linked. Remember to add webhook URL to GitHub repo settings."

  /** Python's `str()` of a JSON value: the text itself for a string; `repr` stands for the rest. */
  function PyStr(j: Json, repr: Json -> string): string {
    if j.JString? then j.s else repr(j)
  }

  /** `link_repo`: a truthy `repo_name` is echoed back in the success message. */
  function LinkRepo(body: Body, repr: Json -> string): (r: Response)
    ensures body == Unreadable ==> r == ClientError
    ensures body.Parsed? && body.json.JObject? ==>
      var fields := body.json.fields;
      (r == RepoRequired <==> "repo_name" !in fields || !Truthy(fields["repo_name"]))
    ensures body.Parsed? && !body.json.JObject? ==> r == ServerError
    ensures body.Parsed? && body.json.JObject? && "repo_name" in body.json.fields && Truthy(body.json.fields["repo_name"]) ==>
      r.code == 200 && r.body.StatusJson? && StartsWith(r.body.status, "Repo ") && EndsWith(r.body.status, LinkedSuffix)
  {
    match body
    case Unreadable => ClientError
    case Parsed(data) =>
      if !data.JObject? then ServerError
      else if "repo_name" !in data.fields || !Truthy(data.fields["repo_name"]) then RepoRequired
      else Response(200, StatusJson("Repo " + PyStr(data.fields["repo_name"], repr) + LinkedSuffix))
  }

  /** A non-empty repository name comes back verbatim at the head of the message. */
  lemma LinkRepoEchoesName(name: string, fields: map<string, Json>, repr: Json -> string)
    requires name != "" && "repo_name" in fields && fields["repo_name"] == JString(name)
    ensures var r := LinkRepo(Parsed(JObject(fields)), repr);
      r.code == 200 && r.body.StatusJson? && StartsWith(r.body.status, "Repo " + name)
      && EndsWith(r.body.status, LinkedSuffix)
  {
    var msg := "Repo " + name + LinkedSuffix;
    assert msg[..|"Repo " + name|] == "Repo " + name;
    assert msg[|msg| - |LinkedSuffix|..] == LinkedSuffix;
  }
}

=== FILE: wrappers.dfy ===
/** Optional values and results with an error, shared by every module of the model. */
module Wrappers {

  /** A value that may be missing: JavaScript's `null`/`undefined`, Python's `None`. */
  datatype Option<+T> = None | Some(value: T)

  /** The value an operation returns, or the exception it raises. */
  datatype Result<+T, +E> = Ok(value: T) | Err(error: E)
}
